=== FILE: README.md ===
# Volumetric ray tracer, modelled in Dafny

This project models the scene model of the single-threaded volumetric ray
tracer in `lab_5/lab_5.cpp`:

- the vector algebra, with `normalize`, and the `Ray` whose constructor
  normalizes the direction;
- the two scene objects, spheres and planes, with their intersection tests and
  their medium densities and colours;
- the `Scene`, with its insertion-ordered object list and one point light;
- the two edits the window's keys trigger, `adjustDensity` and `adjustColor`;
- the ray march `calculateVolumetricLight`. It walks a fixed number of sample
  points along a ray and sums the density and colour of the medium at each.
  It adds the light scattered there from the point light (inverse-square law)
  and attenuates the transmittance (Beer–Lambert).

Floats are modelled as `real`. `std::sqrt` and `std::exp` are a parameter
`m: Math`. `Lawful(m)` is the only thing known about them:

- `sqrt(x)` is non-negative and squares back to `x` for `x >= 0`;
- `exp(y)` lies in (0, 1] for `y <= 0`.

Modules follow the structure of the source file:

| file | module | models |
|---|---|---|
| `numerics.dfy` | `Numerics` | the sqrt/exp parameter, std::min/max, the colour clamp, real-arithmetic facts, quadratic roots |
| `vectors.dfy` | `Vectors` | `Vec3`, `length`, `normalize`, `Ray` |
| `objects.dfy` | `Objects` | `Object`/`Sphere`/`Plane`, `Hit`, `intersect`, `getDensity`, `getColor` |
| `scene.dfy` | `Scenes` | `Scene`, `addObject`, `adjustDensity`, `adjustColor` |
| `volumetric.dfy` | `Volumetric` | `calculateVolumetricLight`, both as a function `March` over the number of samples and as the source's loop |
| `demo.dfy` | `Demo` | the scene `main` builds and the march of its centre pixel; a scene of one red sphere on the view axis and the march of that pixel |

The march is defined twice:

- `Volumetric.March` is a recursive function of how many samples were taken.
  The lemmas about the march are stated over it.
- `Volumetric.CalculateVolumetricLight` is the loop the source runs, with the
  same inner loop over objects. It is proved to compute `March`.

Several conditions under which the source would divide by zero become
preconditions. They are described under "Left out".

## Model

| member | source | states |
|---|---|---|
| `Numerics.Max` | lab_5/lab_5.cpp:258 | std::max returns one of its arguments, and that argument is at least the other |
| `Numerics.Min` | lab_5/lab_5.cpp:290 | std::min returns one of its arguments, and that argument is at most the other |
| `Numerics.Clamp01` | lab_5/lab_5.cpp:290-292 | max(0, min(1, x)) lies in [0, 1]; it is x when x is already there, 0 below the range and 1 above it |
| `Numerics.Abs` | lab_5/lab_5.cpp:153 | std::abs is non-negative and is x or -x |
| `Numerics.QuadraticNoRoot` | lab_5/lab_5.cpp:107-109 | with a > 0 and a negative discriminant, the quadratic is positive everywhere, so it has no root |
| `Numerics.QuadraticRoots` | lab_5/lab_5.cpp:111-113 | with a > 0 and s the root of the discriminant, (-b - s)/2a <= (-b + s)/2a, and these two are exactly the zeros of the quadratic |
| `Vectors.Length` | lab_5/lab_5.cpp:44 | the length is non-negative, its square is v . v, and it is zero exactly for the zero vector |
| `Vectors.Normalize` | lab_5/lab_5.cpp:46-49 | below length 1e-9 the result is the zero vector; otherwise it is a unit vector that, scaled by the length, gives v back |
| `Vectors.NormalizeFixes` | lab_5/lab_5.cpp:46-49 | normalizing a unit or zero vector returns it unchanged |
| `Vectors.NormalizeIdempotent` | lab_5/lab_5.cpp:46-49 | normalizing twice is the same as normalizing once |
| `Vectors.MakeRay` | lab_5/lab_5.cpp:57-62 | a ray keeps its origin and stores its direction normalized: a direction shorter than 1e-9 becomes zero, and any other becomes a unit vector that, scaled by the given direction's length, gives the given direction back; a unit direction is kept as given |
| `Objects.MakeSphere` | lab_5/lab_5.cpp:99-100 | the sphere constructor stores the centre, radius, density and colour it is given |
| `Objects.SphereDefaults` | lab_5/lab_5.cpp:99 | a sphere built without density and colour holds 0.1 of white medium |
| `Objects.MakePlane` | lab_5/lab_5.cpp:148-149 | the plane constructor stores its normal normalized: a normal shorter than 1e-9 becomes zero, and any other becomes a unit vector that, scaled by the given normal's length, gives the given normal back; a unit or zero normal is kept as given. The colour, distance and density are stored as given |
| `Objects.ColorIgnoresPoint` | lab_5/lab_5.cpp:86 | getColor is the base colour at every point |
| `Objects.Falloff` | lab_5/lab_5.cpp:126-129 | the density profile is 0 beyond the radius and 0 on the surface, is the peak density at the centre, and lies in [0, peak] for a non-negative peak |
| `Objects.FalloffMonotone` | lab_5/lab_5.cpp:127-129 | the density profile never rises with the distance from the centre |
| `Objects.FalloffHalfway` | lab_5/lab_5.cpp:129 | half way to the surface the profile is half the peak |
| `Objects.GetDensity` | lab_5/lab_5.cpp:125-130 | a sphere's density at p is the profile at p's distance from the centre: 0 outside and on the surface, volumeDensity at the centre, within [0, volumeDensity] for non-negative volumeDensity; a plane's density is its volumeDensity everywhere (lines 165-169) |
| `Objects.SphereDensityMonotone` | lab_5/lab_5.cpp:125-130 | a point nearer a sphere's centre never has less medium than one further out |
| `Objects.SphereDensityHalfway` | lab_5/lab_5.cpp:125-130 | half way from the centre to the surface the density is half of volumeDensity |
| `Objects.SphereQuadratic` | lab_5/lab_5.cpp:103-107 | the point at t lies on the sphere exactly when t is a zero of a t^2 + b t + c with the source's a, b and c |
| `Objects.SphereMiss` | lab_5/lab_5.cpp:107-109 | with a negative discriminant no point of the ray's line is on the sphere |
| `Objects.SphereRoots` | lab_5/lab_5.cpp:111-115 | with a non-negative discriminant the near root is at most the far root, and the ray meets the sphere exactly at those two |
| `Objects.IntersectSphere` | lab_5/lab_5.cpp:102-123 | no hit when the discriminant is negative. A hit is on the sphere at a non-negative distance, at the near or the far root, and no nearer non-negative point of the ray is on the sphere. The hit's normal is the normalized radius vector and its density is the sphere's. No hit means no point of the ray at t >= 0 is on the sphere |
| `Objects.IntersectPlane` | lab_5/lab_5.cpp:151-163 | no hit when abs(n . d) < 1e-6. A hit satisfies n . p + distance == 0 at p = origin + t d with t >= 0; it is the only point of the line on the plane and carries the plane's normal and density. No hit on a non-parallel ray means the plane is behind the origin |
| `Objects.Intersect` | lab_5/lab_5.cpp:84 | the virtual intersect: a hit is on the object, nearest and at t >= 0, and carries the object's density; no hit (except a ray parallel to a plane) means no such point |
| `Scenes.NewScene` | lab_5/lab_5.cpp:187-188 | a new scene has no objects and the given light |
| `Scenes.AddObject` | lab_5/lab_5.cpp:194-196 | the object is appended, every earlier object keeps its index, and the light is unchanged |
| `Scenes.WithDensity` | lab_5/lab_5.cpp:256-276 | rebuilding an object with a new density keeps its variant, colour, a sphere's centre and radius and a plane's distance; a plane's normal becomes its old normal normalized; for an already normalized object it is an in-place update of the density |
| `Scenes.AdjustDensity` | lab_5/lab_5.cpp:250-277 | an index out of range leaves the scene unchanged and reports WrongIndex. Otherwise the target's density becomes max(0, old + delta), so it is never negative. The target keeps its variant, its colour, a sphere's centre and radius and a plane's distance. A plane's normal becomes its old normal normalized, so a normalized target changes in its density only. Every other object, the object count and the light are unchanged |
| `Scenes.ClampedSum` | lab_5/lab_5.cpp:288-292 | the new colour is in the unit cube, and it is the plain sum when that sum is already in the cube |
| `Scenes.AdjustColor` | lab_5/lab_5.cpp:280-317 | an index out of range leaves the scene unchanged and reports WrongIndex. Otherwise each channel of the target becomes clamp(old + delta, 0, 1) and nothing else of it changes. Every other object, the object count and the light are unchanged |
| `Scenes.AddObjectKeepsValid` | lab_5/lab_5.cpp:194-196 | appending a valid object keeps every object valid: non-negative density, positive sphere radius, normalized plane normal |
| `Scenes.AdjustDensityKeepsValid` | lab_5/lab_5.cpp:256-276 | a density edit with any delta keeps a valid scene valid |
| `Scenes.AdjustColorKeepsValid` | lab_5/lab_5.cpp:286-316 | a colour edit with any delta keeps a valid scene valid |
| `Scenes.AdjustDensityByZero` | lab_5/lab_5.cpp:257-258 | a zero density delta changes nothing when the target's density is non-negative and a plane target's normal is unit or zero |
| `Scenes.AdjustColorByZero` | lab_5/lab_5.cpp:288-292 | a zero colour delta changes nothing when the target's colour is in range |
| `Scenes.AdjustDensitySettles` | lab_5/lab_5.cpp:258 | after any density edit, a zero edit of the same index changes nothing |
| `Scenes.AdjustColorSettles` | lab_5/lab_5.cpp:288-292 | after any colour edit, a zero edit of the same index changes nothing |
| `Scenes.DensityFloorExample` | lab_5/lab_5.cpp:258 | lowering a density of 0.1 by 1.0 three times ends at exactly 0 |
| `Scenes.ColorClampExample` | lab_5/lab_5.cpp:290-292 | (0.9, 0.9, 0.9) + 0.5 clamps to white, and (0.05, 0, 0) - (1, 0, 0) clamps to black |
| `Scenes.WrongIndexExample` | lab_5/lab_5.cpp:251-254 | index 5 in a three-object scene is refused by both edits and changes nothing |
| `Volumetric.Gather` | lab_5/lab_5.cpp:212-219 | the summed density at a point is non-negative when every object's density is. It is 0, with no colour, when every object's density is 0 |
| `Volumetric.GatherUniformColor` | lab_5/lab_5.cpp:212-219 | where all the medium has colour c, the weighted colour is c scaled by the summed density |
| `Volumetric.StepSize` | lab_5/lab_5.cpp:201 | the step maxDist / numSamples is non-negative for a non-negative distance |
| `Volumetric.Irradiance` | lab_5/lab_5.cpp:226-231 | the light reaching p, times the squared distance to the light, is the intensity (inverse-square law); it is non-negative for a non-negative intensity |
| `Volumetric.Attenuation` | lab_5/lab_5.cpp:241 | exp(-density * step) lies in (0, 1] for a positive density and a non-negative step |
| `Volumetric.Contribution` | lab_5/lab_5.cpp:234 | the scattered light is non-negative when its factors are, and 0 when the irradiance, the step or the transmittance is 0 |
| `Volumetric.Absorb` | lab_5/lab_5.cpp:235-241 | the light grows by the contribution, the colour by the sample colour times the contribution, and a factor in (0, 1] keeps the transmittance positive and never raises it |
| `Volumetric.Scatter` | lab_5/lab_5.cpp:221-242 | a sample without medium changes nothing, transmittance included; any sample leaves the total light no lower and the transmittance positive and no higher |
| `Volumetric.March` | lab_5/lab_5.cpp:202-243 | after any number of samples the total light is non-negative and the transmittance is in (0, 1] |
| `Volumetric.MarchMonotone` | lab_5/lab_5.cpp:206-243 | from fewer samples to more, the total light never decreases and the transmittance never increases |
| `Volumetric.MarchWithoutMedium` | lab_5/lab_5.cpp:206-243 | if no sample has medium, the march ends in its start state: no light, no colour, transmittance 1 |
| `Volumetric.ScatterUniformColor` | lab_5/lab_5.cpp:223-238 | a sample of uniform colour c keeps the accumulated colour equal to c scaled by the total light |
| `Volumetric.MarchUniformColor` | lab_5/lab_5.cpp:206-243 | if the medium at every sample has colour c, the accumulated colour is c scaled by the total light |
| `Volumetric.FinalColor` | lab_5/lab_5.cpp:245 | above 1e-9 of light, the reported colour scaled by the total light is the accumulated colour; at or below it, the colour is black |
| `Volumetric.MarchFinalColor` | lab_5/lab_5.cpp:245 | where the medium at every sample has colour c, the reported colour is c itself, or black when the light is at most 1e-9 |
| `Volumetric.UniformSceneColor` | lab_5/lab_5.cpp:199-247 | in a scene whose objects all have colour c and non-negative density, every ray reports colour c or black |
| `Volumetric.GatherAt` | lab_5/lab_5.cpp:208-219 | the inner loop over the objects computes exactly Gather |
| `Volumetric.MarchSample` | lab_5/lab_5.cpp:207-242 | one pass of the sample loop computes exactly one step of March |
| `Volumetric.CalculateVolumetricLight` | lab_5/lab_5.cpp:199-247 | the loop returns March's total light and final colour. The total light is non-negative for a non-negative distance and intensity. The colour is black at or below 1e-9 of light. A ray whose samples all lack medium returns 0 and black, and so does a non-positive sample count, for which the loop takes no samples |
| `Demo.DemoObjects` | lab_5/lab_5.cpp:342-349 | main's scene holds its two spheres and the plane, in that order, with the light at (5, 5, 5) of intensity 50 |
| `Demo.CentreRay` | lab_5/lab_5.cpp:369 | the centre pixel's ray starts at the camera (0, 0, -5) and points along +z |
| `Demo.DemoStep` | lab_5/lab_5.cpp:373 | 20 units over the default 15 samples is a step of 4/3 |
| `Demo.GatherOnAxis` | lab_5/lab_5.cpp:345-349 | on the z axis both spheres are empty, and the medium is the plane's 0.02 of colour (0.5, 0.5, 1) |
| `Demo.ScatterAtCamera` | lab_5/lab_5.cpp:231-235 | at the camera, 150 squared units from the light, the first sample scatters 0.02 * (50 / 150) * (4/3) of light |
| `Demo.AxisLight` | lab_5/lab_5.cpp:206-243 | every march of one or more samples along the centre ray gathers at least the first sample's 0.02 * (50 / 150) * (4/3) of light |
| `Demo.AxisColor` | lab_5/lab_5.cpp:245 | every march along the centre ray reports the plane's colour (0.5, 0.5, 1) when it gathers more than 1e-9 of light, black otherwise |
| `Demo.CentrePixel` | lab_5/lab_5.cpp:342-373 | the centre pixel's march of 15 samples over 20 units gathers more than 1e-9 of light, and its colour is exactly the plane's (0.5, 0.5, 1) |
| `Demo.SphereOnlyBuilt` | lab_5/lab_5.cpp:99-100 | a sphere of radius 1 and density 0.1 at (0, 0, 5), colour (1, 0, 0), added to a new scene lit from (5, 5, 5) at 50, is the one-sphere scene |
| `Demo.EmptyBeforeSphere` | lab_5/lab_5.cpp:125-130 | the ray from the camera along +z meets no medium at its first 7 samples, which lie at least 2 before the sphere's centre |
| `Demo.MarchAtSphere` | lab_5/lab_5.cpp:206-243 | the march of k + 1 <= 8 samples scatters only sample k into the start state, because no earlier sample holds medium |
| `Demo.SeventhDensity` | lab_5/lab_5.cpp:125-130 | sample 7, at z = 13/3, lies 2/3 from the centre, where the sphere's medium is 0.1 * (1 - 2/3) = 1/30 |
| `Demo.SeventhIrradiance` | lab_5/lab_5.cpp:226-231 | sample 7 lies 454/9 squared units from the light and receives 50 / (454/9) = 225/227 of it |
| `Demo.SeventhScatter` | lab_5/lab_5.cpp:221-242 | a sample of 1/30 medium there scatters (1/30) * (225/227) * (4/3) = 10/227 of light into a fresh march |
| `Demo.EightSamples` | lab_5/lab_5.cpp:202-243 | after 8 samples the march has gathered exactly 10/227 of light |
| `Demo.SphereLight` | lab_5/lab_5.cpp:206-243 | every march of 8 or more samples along the axis gathers at least 10/227 of light |
| `Demo.SphereColor` | lab_5/lab_5.cpp:245 | every march along the axis reports pure red (1, 0, 0) when it gathers more than 1e-9 of light, black otherwise |
| `Demo.SpherePixel` | lab_5/lab_5.cpp:199-247 | the one-sphere pixel's march of 15 samples over 20 units gathers more than 1e-9 of light, and its colour is (1, 0, 0), red above green and blue |

## Left out

- `main` (lab_5/lab_5.cpp:323-476) is not modelled, except for the scene it builds and its centre ray in `Demo`. Not modelled: the SFML window, the event loop and key bindings, the mapping of other pixels to rays, and the conversion of colours to 8-bit pixels. These are user interface and I/O.
- `log` and `ScopedTimer` (lab_5/lab_5.cpp:10-28) write to the console and read the clock. A refused edit is reported by the `WrongIndex` status instead of a log line. The log messages of successful edits are dropped.
- IEEE single-precision rounding is not modelled. The model computes over the reals, and the constants 1e-9f and 1e-6 are their decimal values.
- Exact values of sqrt and exp are not modelled. They are a parameter with only the laws stated above, so nothing is claimed about numerical accuracy.
- Ownership of the objects by raw pointers is not modelled: deleting and rebuilding an object in place, and the scene destructor (lab_5/lab_5.cpp:190-192, 262-275). The scene holds a sequence of values, and an edit returns a new scene.
- `Objects.IntersectSphere` requires a non-zero ray direction. For a zero direction the source divides by 2a = 0. A ray built from a degenerate direction has one.
- `Volumetric.Gather` requires spheres of non-zero radius. At the centre of a radius-0 sphere the source computes 0 / 0.
- `Volumetric.CalculateVolumetricLight` requires that the light does not sit exactly on a sample point that has medium. There the source divides by a zero distance.
- The normalized direction to the light in `calculateVolumetricLight` (lab_5/lab_5.cpp:228) is computed and never used, so it is not modelled.
- `Volumetric.StepSize` gives 0 for a non-positive sample count, where the source computes maxDist / numSamples. That step is never used, because the loop then takes no samples.
- `Objects.MakePlane` normalizes the normal on every rebuild, as the source's constructor does. `Scenes.WithDensity` is proved equal to an in-place density update only for a plane whose normal is already unit or zero. The source's renormalization of a float normal may differ from it in the last bit, and reals do not show that.
- `Vec3::multiply` (lab_5/lab_5.cpp:52-54), the componentwise product, is never called by the tracer, so it is not modelled.
- The getters `getCenter`, `getRadius`, `getDensityValue`, `getNormal` and `getDistance`, and the setters `setColor`, are field accesses and field updates of the datatype. They have no members of their own.
- `lab_1`, `lab_2` and `lab_3` are separate OpenGL programs with no logic beyond drawing loops, and are not modelled.

=== FILE: demo.dfy ===
/**
 The scene the tracer's window renders (lab_5/lab_5.cpp, main): a red and a
 green sphere either side of the view axis, a blue-tinted plane filling space
 with a thin medium, and a point light, seen from a camera at (0, 0, -5).

 The ray through the centre pixel passes between the spheres, so all the
 medium it meets is the plane's, and it comes out in the plane's colour.
 */
module Demo {
  import opened Numerics
  import opened Vectors
  import opened Objects
  import opened Scenes
  import opened Volumetric

  const LightPos: Vec3 := Vec3(5.0, 5.0, 5.0)
  const LightIntensity: real := 50.0
  const CameraPos: Vec3 := Vec3(0.0, 0.0, -5.0)

  /** The march length every pixel uses. */
  const MaxDist: real := 20.0

  const LeftSphere: Object := Sphere(Vec3(1.0, 0.2, 0.2), Vec3(-1.5, 0.0, 5.0), 1.0, 0.1)
  const RightSphere: Object := Sphere(Vec3(0.2, 1.0, 0.2), Vec3(1.5, 0.0, 5.0), 1.0, 0.1)
  const PlaneColor: Vec3 := Vec3(0.5, 0.5, 1.0)
  const Floor: Object := Plane(PlaneColor, Vec3(0.0, 1.0, 0.0), 2.0, 0.02)

  /** The scene main builds, as a value. */
  const Built: Scene := Scene([LeftSphere, RightSphere, Floor], LightPos, LightIntensity)

  /** The centre ray, as a value. */
  const Axis: Ray := Ray(CameraPos, Vec3(0.0, 0.0, 1.0))

  /** The scene as main builds it, object by object. */
  function DemoScene(m: Math): Scene
    requires Lawful(m)
  {
    var s0 := NewScene(LightPos, LightIntensity);
    var s1 := AddObject(s0, MakeSphere(Vec3(-1.5, 0.0, 5.0), 1.0, 0.1, Vec3(1.0, 0.2, 0.2)));
    var s2 := AddObject(s1, MakeSphere(Vec3(1.5, 0.0, 5.0), 1.0, 0.1, Vec3(0.2, 1.0, 0.2)));
    AddObject(s2, MakePlane(m, Vec3(0.0, 1.0, 0.0), 2.0, 0.02, PlaneColor))
  }

  /** The floor built from its unit normal is exactly Floor. */
  lemma FloorBuilt(m: Math)
    requires Lawful(m)
    ensures MakePlane(m, Vec3(0.0, 1.0, 0.0), 2.0, 0.02, PlaneColor) == Floor
  {
    assert IsUnit(Vec3(0.0, 1.0, 0.0));
    UnitPlane(m, Vec3(0.0, 1.0, 0.0), 2.0, 0.02, PlaneColor);
  }

  /** The plane keeps its unit normal, so the scene holds exactly these
      objects in this order. */
  lemma DemoObjects(m: Math)
    requires Lawful(m)
    ensures DemoScene(m) == Built
  {
    assert MakeSphere(Vec3(-1.5, 0.0, 5.0), 1.0, 0.1, Vec3(1.0, 0.2, 0.2)) == LeftSphere;
    assert MakeSphere(Vec3(1.5, 0.0, 5.0), 1.0, 0.1, Vec3(0.2, 1.0, 0.2)) == RightSphere;
    FloorBuilt(m);
    AddThree(NewScene(LightPos, LightIntensity), LeftSphere, RightSphere, Floor);
  }

  /** Three objects added to an empty scene, in order. */
  lemma AddThree(s: Scene, a: Object, b: Object, c: Object)
    requires s.objects == []
    ensures AddObject(AddObject(AddObject(s, a), b), c) == s.(objects := [a, b, c])
  {
  }

  /** A plane built from a unit normal holds exactly the arguments given. */
  lemma UnitPlane(m: Math, normal: Vec3, distance: real, density: real, color: Vec3)
    requires Lawful(m) && IsUnit(normal)
    ensures MakePlane(m, normal, distance, density, color) == Plane(color, normal, distance, density)
  {
  }

  /** The camera ray through the centre pixel, where u = v = 0. */
  function CentreRay(m: Math): (r: Ray)
    requires Lawful(m)
    ensures r == Axis
  {
    assert IsUnit(Vec3(0.0, 0.0, 1.0));
    NormalizeKeeps(m, Vec3(0.0, 0.0, 1.0));
    MakeRay(m, CameraPos, Normalize(m, Vec3(0.0, 0.0, 1.0)))
  }

  const Step: real := 20.0 / 15.0

  lemma DemoStep()
    ensures StepSize(MaxDist, DefaultSamples) == Step
  {
  }

  /** Every sample of the centre ray lies on the z axis. */
  lemma SampleOnAxis(i: nat)
    ensures SamplePoint(Axis, Step, i) == Vec3(0.0, 0.0, -5.0 + (i as real) * Step)
  {
  }

  /** A sphere holds no medium at a point further from its centre than its
      radius. */
  lemma OutsideSphere(m: Math, o: Object, p: Vec3)
    requires Lawful(m) && o.Sphere? && 0.0 < o.radius
    requires o.radius * o.radius < Dot(Sub(p, o.center), Sub(p, o.center))
    ensures GetDensity(m, o, p) == 0.0
  {
    SqrtAbove(m, Dot(Sub(p, o.center), Sub(p, o.center)), o.radius);
  }

  /** On the z axis, both spheres are at least 1.5 away, beyond their radius 1. */
  lemma AxisMissesSpheres(m: Math, z: real)
    requires Lawful(m)
    ensures GetDensity(m, LeftSphere, Vec3(0.0, 0.0, z)) == 0.0
    ensures GetDensity(m, RightSphere, Vec3(0.0, 0.0, z)) == 0.0
  {
    SquareNonNegative(z - 5.0);
    OutsideSphere(m, LeftSphere, Vec3(0.0, 0.0, z));
    OutsideSphere(m, RightSphere, Vec3(0.0, 0.0, z));
  }

  /** On the z axis the spheres gather nothing. */
  lemma GatherSpheres(m: Math, z: real)
    requires Lawful(m)
    ensures Samplable([LeftSphere, RightSphere])
    ensures Gather(m, [LeftSphere, RightSphere], Vec3(0.0, 0.0, z)) == Sample(0.0, Zero)
  {
    var p := Vec3(0.0, 0.0, z);
    AxisMissesSpheres(m, z);
    assert [LeftSphere, RightSphere][..1] == [LeftSphere];
    assert [LeftSphere][..0] == [];
    assert Gather(m, [LeftSphere], p) == Sample(0.0, Zero);
  }

  /** On the z axis the medium is the plane's alone. */
  lemma GatherOnAxis(m: Math, z: real)
    requires Lawful(m)
    ensures Samplable([LeftSphere, RightSphere, Floor])
    ensures Gather(m, [LeftSphere, RightSphere, Floor], Vec3(0.0, 0.0, z)) == Sample(0.02, Scale(PlaneColor, 0.02))
  {
    GatherSpheres(m, z);
    assert [LeftSphere, RightSphere, Floor][..2] == [LeftSphere, RightSphere];
    assert Add(Zero, Scale(PlaneColor, 0.02)) == Scale(PlaneColor, 0.02);
  }

  /** On the z axis only the plane has medium, so the medium is all of the
      plane's colour. */
  lemma TintedOnAxis(m: Math, z: real)
    requires Lawful(m)
    ensures Samplable([LeftSphere, RightSphere, Floor])
    ensures TintedAt(m, [LeftSphere, RightSphere, Floor], Vec3(0.0, 0.0, z), PlaneColor)
  {
    AxisMissesSpheres(m, z);
  }

  /** Sample i of the centre ray: clear of the light at (5, 5, 5), which is
      off the axis, and tinted by the plane alone. */
  lemma AxisSample(m: Math, i: nat)
    requires Lawful(m)
    ensures Samplable(Built.objects)
    ensures ClearAt(m, Built, Axis, Step, i)
    ensures TintedAt(m, Built.objects, SamplePoint(Axis, Step, i), PlaneColor)
  {
    SampleOnAxis(i);
    GatherOnAxis(m, -5.0 + (i as real) * Step);
    TintedOnAxis(m, -5.0 + (i as real) * Step);
  }

  /** A light off the z axis is clear of every sample of the centre ray,
      whatever the scene's medium. */
  lemma {:induction false} OffAxisClear(m: Math, scene: Scene, k: nat)
    requires Lawful(m) && Samplable(scene.objects) && scene.lightPos.x != 0.0
    ensures LightClear(m, scene, Axis, Step, k)
    decreases k
  {
    if k > 0 {
      OffAxisClear(m, scene, k - 1);
      SampleOnAxis(k - 1);
    }
  }

  /** Every sample of the centre ray is clear of the light. */
  lemma AxisClear(m: Math, k: nat)
    requires Lawful(m)
    ensures Samplable(Built.objects) && LightClear(m, Built, Axis, Step, k)
  {
    GatherOnAxis(m, 0.0);
    OffAxisClear(m, Built, k);
  }

  /** Every sample of the centre ray is tinted by the plane alone. */
  lemma {:induction false} AxisTinted(m: Math, k: nat)
    requires Lawful(m)
    ensures Samplable(Built.objects) && TintedUpTo(m, Built, Axis, Step, k, PlaneColor)
    decreases k
  {
    AxisSample(m, 0);
    if k > 0 {
      AxisTinted(m, k - 1);
      AxisSample(m, k - 1);
    }
  }

  /** The first sample sits at the camera. */
  lemma FirstAtCamera()
    ensures SamplePoint(Axis, Step, 0) == CameraPos
  {
  }

  /** The camera is 150 squared units from the light. */
  lemma CameraToLight()
    ensures Dot(Sub(LightPos, CameraPos), Sub(LightPos, CameraPos)) == 150.0
  {
  }

  /** So 50 / 150 of the light's intensity reaches the camera. */
  lemma CameraIrradiance(m: Math)
    requires Lawful(m)
    ensures CameraPos != LightPos
    ensures Irradiance(m, LightIntensity, CameraPos, LightPos) == 1.0 / 3.0
  {
    CameraToLight();
    var r := Irradiance(m, LightIntensity, CameraPos, LightPos);
    assert r * 150.0 == 50.0;
  }

  /** The plane's medium at the camera scatters 0.02 * (50 / 150) * (4/3)
      of light into a fresh march. */
  lemma ScatterAtCamera(m: Math)
    requires Lawful(m)
    ensures CameraPos != LightPos
    ensures Scatter(m, Built, CameraPos, Sample(0.02, Scale(PlaneColor, 0.02)), Step, Start).totalLight
            == 0.02 * (1.0 / 3.0) * Step
  {
    CameraIrradiance(m);
    var irradiance := Irradiance(m, LightIntensity, CameraPos, LightPos);
    assert Contribution(0.02, irradiance, Step, 1.0) == 0.02 * (1.0 / 3.0) * Step;
  }

  /** The medium at the camera is the plane's. */
  lemma GatherAtCamera(m: Math)
    requires Lawful(m)
    ensures Samplable(Built.objects)
    ensures Gather(m, Built.objects, CameraPos) == Sample(0.02, Scale(PlaneColor, 0.02))
  {
    GatherOnAxis(m, -5.0);
  }

  /** A march of one sample scatters that sample into the start state. */
  lemma MarchOfOne(m: Math, scene: Scene, ray: Ray, stepSize: real)
    requires Lawful(m) && Samplable(scene.objects) && ClearAt(m, scene, ray, stepSize, 0)
    ensures LightClear(m, scene, ray, stepSize, 1)
    ensures var p := SamplePoint(ray, stepSize, 0);
            March(m, scene, ray, stepSize, 1) == Scatter(m, scene, p, Gather(m, scene.objects, p), stepSize, Start)
  {
  }

  /** A march whose first k samples hold no medium scatters sample k into
      the start state. */
  lemma MarchFromStart(m: Math, scene: Scene, ray: Ray, stepSize: real, k: nat, p: Vec3)
    requires Lawful(m) && Samplable(scene.objects) && LightClear(m, scene, ray, stepSize, k + 1)
    requires forall i: nat :: i < k ==> Gather(m, scene.objects, SamplePoint(ray, stepSize, i)).density <= 0.0
    requires SamplePoint(ray, stepSize, k) == p && p != scene.lightPos
    ensures March(m, scene, ray, stepSize, k + 1) == Scatter(m, scene, p, Gather(m, scene.objects, p), stepSize, Start)
  {
    MarchWithoutMedium(m, scene, ray, stepSize, k);
  }

  /** The first sample is clear of the light. */
  lemma FirstClear(m: Math)
    requires Lawful(m)
    ensures Samplable(Built.objects) && ClearAt(m, Built, Axis, Step, 0)
  {
    FirstAtCamera();
    GatherAtCamera(m);
  }

  /** The first sample scatters the plane's medium at the camera. */
  lemma FirstMarch(m: Math)
    requires Lawful(m)
    ensures Samplable(Built.objects) && LightClear(m, Built, Axis, Step, 1)
    ensures March(m, Built, Axis, Step, 1)
            == Scatter(m, Built, CameraPos, Sample(0.02, Scale(PlaneColor, 0.02)), Step, Start)
  {
    FirstClear(m);
    MarchOfOne(m, Built, Axis, Step);
    FirstAtCamera();
    GatherAtCamera(m);
  }

  /** The first sample already gathers that light. */
  lemma FirstSample(m: Math)
    requires Lawful(m)
    ensures Samplable(Built.objects) && LightClear(m, Built, Axis, Step, 1)
    ensures March(m, Built, Axis, Step, 1).totalLight == 0.02 * (1.0 / 3.0) * Step
  {
    FirstMarch(m);
    ScatterAtCamera(m);
  }

  /** Every march of one or more samples along the centre ray gathers at
      least the first sample's light: later samples only add light. */
  lemma {:induction false} AxisLight(m: Math, k: nat)
    requires Lawful(m) && 1 <= k
    ensures Samplable(Built.objects) && LightClear(m, Built, Axis, Step, k)
    ensures 0.02 * (1.0 / 3.0) * Step <= March(m, Built, Axis, Step, k).totalLight
    decreases k
  {
    if k == 1 {
      FirstSample(m);
    } else {
      AxisLight(m, k - 1);
      AxisClear(m, k);
      MarchMonotone(m, Built, Axis, Step, k - 1, k);
    }
  }

  /** The only medium on the centre ray is the plane's, so every march along
      it that gathers light reports the plane's colour. */
  lemma AxisColor(m: Math, k: nat)
    requires Lawful(m)
    ensures Samplable(Built.objects) && LightClear(m, Built, Axis, Step, k)
    ensures var st := March(m, Built, Axis, Step, k);
            FinalColor(st) == if st.totalLight > LightEpsilon then PlaneColor else Zero
  {
    AxisClear(m, k);
    AxisTinted(m, k);
    MarchFinalColor(m, Built, Axis, Step, k, PlaneColor);
  }

  /** The centre ray's march over all 15 samples gathers more than the
      threshold of light, and the colour is the plane's. */
  lemma AxisPixel(m: Math)
    requires Lawful(m)
    ensures Samplable(Built.objects) && LightClear(m, Built, Axis, Step, DefaultSamples)
    ensures var st := March(m, Built, Axis, Step, DefaultSamples);
            LightEpsilon < st.totalLight && FinalColor(st) == PlaneColor
  {
    AxisLight(m, DefaultSamples);
    AxisColor(m, DefaultSamples);
  }

  /** The centre pixel: the march of the default 15 samples over 20 units
      gathers light, and its colour is exactly the plane's. */
  lemma CentrePixel(m: Math)
    requires Lawful(m)
    ensures Samplable(DemoScene(m).objects)
    ensures LightClear(m, DemoScene(m), CentreRay(m), StepSize(MaxDist, DefaultSamples), DefaultSamples)
    ensures var st := March(m, DemoScene(m), CentreRay(m), StepSize(MaxDist, DefaultSamples), DefaultSamples);
            LightEpsilon < st.totalLight && FinalColor(st) == PlaneColor
  {
    DemoObjects(m);
    DemoStep();
    AxisPixel(m);
  }

  // A single red sphere on the view axis, lit from (5, 5, 5): the ray from
  // the camera along +z enters the sphere's medium at sample 7.

  const Red: Vec3 := Vec3(1.0, 0.0, 0.0)
  const RedSphere: Object := Sphere(Red, Vec3(0.0, 0.0, 5.0), 1.0, 0.1)
  const SphereOnly: Scene := Scene([RedSphere], LightPos, LightIntensity)

  /** The scene built from the sphere alone. */
  lemma SphereOnlyBuilt()
    ensures AddObject(NewScene(LightPos, LightIntensity), MakeSphere(Vec3(0.0, 0.0, 5.0), 1.0, 0.1, Red))
            == SphereOnly
  {
  }

  /** What the sphere alone gathers at a point of the z axis 1 or more
      beyond its radius: nothing. */
  lemma SphereEmptyAt(m: Math, z: real)
    requires Lawful(m) && 2.0 <= Abs(z - 5.0)
    ensures Samplable([RedSphere])
    ensures Gather(m, [RedSphere], Vec3(0.0, 0.0, z)).density == 0.0
  {
    var w := Abs(z - 5.0);
    SquareMonotone(1.0, w);
    assert Dot(Sub(Vec3(0.0, 0.0, z), RedSphere.center), Sub(Vec3(0.0, 0.0, z), RedSphere.center)) == w * w;
    OutsideSphere(m, RedSphere, Vec3(0.0, 0.0, z));
    assert [RedSphere][..0] == [];
  }

  /** Samples 0 to 6 lie at z = -5 + 4i/3 <= 3, at least 2 before the centre. */
  lemma BeforeSphere(m: Math, i: nat)
    requires Lawful(m) && i < 7
    ensures Samplable(SphereOnly.objects)
    ensures Gather(m, SphereOnly.objects, SamplePoint(Axis, Step, i)).density <= 0.0
  {
    SampleOnAxis(i);
    var z := -5.0 + (i as real) * Step;
    assert (i as real) <= 6.0;
    assert z <= 3.0;
    SphereEmptyAt(m, z);
  }

  /** None of the first k <= 7 samples holds medium. */
  lemma EmptyBeforeSphere(m: Math, k: nat)
    requires Lawful(m) && k <= 7
    ensures Samplable(SphereOnly.objects)
    ensures forall i: nat :: i < k ==> Gather(m, SphereOnly.objects, SamplePoint(Axis, Step, i)).density <= 0.0
  {
    assert NonDegenerate(RedSphere);
    forall i: nat | i < k
      ensures Gather(m, SphereOnly.objects, SamplePoint(Axis, Step, i)).density <= 0.0
    {
      BeforeSphere(m, i);
    }
  }

  /** Sample 7 lies at z = 13/3, 2/3 before the centre. The lemmas about it
      take z with 3 * z == 13 and state their values multiplied out. */
  lemma SeventhSample(z: real)
    requires 3.0 * z == 13.0
    ensures SamplePoint(Axis, Step, 7) == Vec3(0.0, 0.0, z)
  {
  }

  /** Sample 7 is 2/3 from the centre ... */
  lemma SeventhOffset(z: real)
    requires 3.0 * z == 13.0
    ensures var v := Sub(Vec3(0.0, 0.0, z), RedSphere.center); 9.0 * Dot(v, v) == 4.0
  {
    var v := Sub(Vec3(0.0, 0.0, z), RedSphere.center);
    assert 3.0 * v.z == -2.0;
    assert 9.0 * (v.z * v.z) == (3.0 * v.z) * (3.0 * v.z);
  }

  /** ... at distance 2/3 ... */
  lemma SeventhLength(m: Math, z: real)
    requires Lawful(m) && 3.0 * z == 13.0
    ensures 3.0 * Length(m, Sub(Vec3(0.0, 0.0, z), RedSphere.center)) == 2.0
  {
    SeventhOffset(z);
    var q := 3.0 * Length(m, Sub(Vec3(0.0, 0.0, z), RedSphere.center));
    assert q * q == 2.0 * 2.0;
    SquareMonotone(q, 2.0);
    SquareMonotone(2.0, q);
  }

  /** ... so the sphere's medium there is 0.1 * (1 - 2/3) = 1/30 ... */
  lemma SeventhDensity(m: Math, z: real)
    requires Lawful(m) && 3.0 * z == 13.0
    ensures 30.0 * GetDensity(m, RedSphere, Vec3(0.0, 0.0, z)) == 1.0
  {
    SeventhLength(m, z);
  }

  /** ... all of it red. */
  lemma SeventhGather(m: Math, z: real)
    requires Lawful(m) && 3.0 * z == 13.0
    ensures Samplable(SphereOnly.objects)
    ensures var s := Gather(m, SphereOnly.objects, Vec3(0.0, 0.0, z));
            30.0 * s.density == 1.0 && s.weightedColor == Scale(Red, s.density)
  {
    SeventhDensity(m, z);
    assert [RedSphere][..0] == [];
  }

  /** The sample is 454/9 squared units from the light ... */
  lemma SeventhToLight(z: real)
    requires 3.0 * z == 13.0
    ensures Vec3(0.0, 0.0, z) != LightPos
    ensures var v := Sub(LightPos, Vec3(0.0, 0.0, z)); 9.0 * Dot(v, v) == 454.0
  {
    var v := Sub(LightPos, Vec3(0.0, 0.0, z));
    assert 3.0 * v.z == 2.0;
    assert 9.0 * (v.z * v.z) == (3.0 * v.z) * (3.0 * v.z);
  }

  /** ... and receives 50 / (454/9) = 225/227 of the light. */
  lemma SeventhIrradiance(m: Math, z: real)
    requires Lawful(m) && 3.0 * z == 13.0
    ensures Vec3(0.0, 0.0, z) != LightPos
    ensures 227.0 * Irradiance(m, LightIntensity, Vec3(0.0, 0.0, z), LightPos) == 225.0
  {
    SeventhToLight(z);
    var v := Sub(LightPos, Vec3(0.0, 0.0, z));
    var r := Irradiance(m, LightIntensity, Vec3(0.0, 0.0, z), LightPos);
    assert 9.0 * (r * Dot(v, v)) == r * (9.0 * Dot(v, v));
  }

  /** Into a fresh march, a sample of 1/30 red medium there scatters
      (1/30) * (225/227) * (4/3) = 10/227 of light. */
  lemma SeventhScatter(m: Math, z: real, s: Sample)
    requires Lawful(m) && 3.0 * z == 13.0 && 30.0 * s.density == 1.0
    ensures Vec3(0.0, 0.0, z) != LightPos
    ensures 227.0 * Scatter(m, SphereOnly, Vec3(0.0, 0.0, z), s, Step, Start).totalLight == 10.0
  {
    SeventhIrradiance(m, z);
    var irradiance := Irradiance(m, LightIntensity, Vec3(0.0, 0.0, z), LightPos);
    var d := s.density;
    assert 15.0 * Step == 20.0;
    assert 227.0 * (d * irradiance * Step * 1.0) * 30.0 * 15.0
        == (30.0 * d) * (227.0 * irradiance) * (15.0 * Step);
  }

  /** No sample before the eighth holds medium, so the march of k + 1 <= 8
      samples scatters sample k, at p, into the start state. */
  lemma MarchAtSphere(m: Math, k: nat, p: Vec3)
    requires Lawful(m) && k <= 7 && SamplePoint(Axis, Step, k) == p && p != LightPos
    ensures Samplable(SphereOnly.objects) && LightClear(m, SphereOnly, Axis, Step, k + 1)
    ensures March(m, SphereOnly, Axis, Step, k + 1)
            == Scatter(m, SphereOnly, p, Gather(m, SphereOnly.objects, p), Step, Start)
  {
    OffAxisClear(m, SphereOnly, k + 1);
    EmptyBeforeSphere(m, k);
    MarchFromStart(m, SphereOnly, Axis, Step, k, p);
  }

  /** After 8 samples the march has gathered 10/227 of light. */
  lemma EightSamples(m: Math)
    requires Lawful(m)
    ensures Samplable(SphereOnly.objects) && LightClear(m, SphereOnly, Axis, Step, 8)
    ensures 227.0 * March(m, SphereOnly, Axis, Step, 8).totalLight == 10.0
  {
    var z := 13.0 / 3.0;
    var p := Vec3(0.0, 0.0, z);
    SeventhSample(z);
    SeventhToLight(z);
    MarchAtSphere(m, 7, p);
    SeventhGather(m, z);
    SeventhScatter(m, z, Gather(m, SphereOnly.objects, p));
  }

  /** Every march of 8 or more samples gathers at least that much: later
      samples only add light. */
  lemma {:induction false} SphereLight(m: Math, k: nat)
    requires Lawful(m) && 8 <= k
    ensures Samplable(SphereOnly.objects) && LightClear(m, SphereOnly, Axis, Step, k)
    ensures 10.0 <= 227.0 * March(m, SphereOnly, Axis, Step, k).totalLight
    decreases k
  {
    if k == 8 {
      EightSamples(m);
    } else {
      SphereLight(m, k - 1);
      OffAxisClear(m, SphereOnly, k);
      MarchMonotone(m, SphereOnly, Axis, Step, k - 1, k);
    }
  }

  /** The sphere's medium is all red, so any march along the axis that
      gathers light reports pure red. */
  lemma SphereColor(m: Math, k: nat)
    requires Lawful(m) && Samplable(SphereOnly.objects) && LightClear(m, SphereOnly, Axis, Step, k)
    ensures var st := March(m, SphereOnly, Axis, Step, k);
            FinalColor(st) == if st.totalLight > LightEpsilon then Red else Zero
  {
    UniformSceneColor(m, SphereOnly, Axis, Step, k, Red);
  }

  /** The sphere's pixel: the march of the default 15 samples over 20 units
      gathers light, and its colour is pure red, so red exceeds green and blue. */
  lemma SpherePixel(m: Math)
    requires Lawful(m)
    ensures Samplable(SphereOnly.objects)
    ensures LightClear(m, SphereOnly, Axis, StepSize(MaxDist, DefaultSamples), DefaultSamples)
    ensures var st := March(m, SphereOnly, Axis, StepSize(MaxDist, DefaultSamples), DefaultSamples);
            && LightEpsilon < st.totalLight
            && FinalColor(st) == Red
            && FinalColor(st).y < FinalColor(st).x && FinalColor(st).z < FinalColor(st).x
  {
    DemoStep();
    SphereLight(m, DefaultSamples);
    SphereColor(m, DefaultSamples);
  }
}

=== FILE: numerics.dfy ===
/**
 The scalar side of the tracer: the two library functions it calls, std::sqrt
 and std::exp, and the std::min / std::max clamps it applies.

 Floats are modelled as `real`. sqrt and exp cannot be computed over the reals,
 so they are passed around as a `Math` value and every fact the model uses
 about them is the predicate `Lawful`.
 */
module Numerics {

  /** The square root and the exponential the tracer calls. */
  datatype Math = Math(sqrt: real -> real, exp: real -> real)

  /** sqrt is the non-negative square root at x, if x is non-negative. */
  ghost predicate SqrtLawAt(m: Math, x: real) {
    0.0 <= x ==> 0.0 <= m.sqrt(x) && m.sqrt(x) * m.sqrt(x) == x
  }

  /** exp maps y into (0, 1], if y is non-positive. */
  ghost predicate ExpLawAt(m: Math, y: real) {
    y <= 0.0 ==> 0.0 < m.exp(y) <= 1.0
  }

  /** The only facts the model relies on, everywhere. They are stated
      through SqrtLawAt and ExpLawAt so that they are used only where a
      proof asks for them, by SqrtLaw and ExpLaw. */
  ghost predicate Lawful(m: Math) {
    (forall x :: SqrtLawAt(m, x)) && (forall y :: ExpLawAt(m, y))
  }

  /** std::max(a, b), which returns `a` unless `a < b`. */
  function Max(a: real, b: real): (r: real)
    ensures a <= r && b <= r
    ensures r == a || r == b
  {
    if a < b then b else a
  }

  /** std::min(a, b), which returns `a` unless `b < a`. */
  function Min(a: real, b: real): (r: real)
    ensures r <= a && r <= b
    ensures r == a || r == b
  {
    if b < a then b else a
  }

  /** std::abs. */
  function Abs(x: real): (r: real)
    ensures 0.0 <= r && (r == x || r == -x)
  {
    if x < 0.0 then -x else x
  }

  /** max(0, min(1, x)), the per-channel colour clamp. */
  function Clamp01(x: real): (r: real)
    ensures 0.0 <= r <= 1.0
    ensures 0.0 <= x <= 1.0 ==> r == x
    ensures x < 0.0 ==> r == 0.0
    ensures 1.0 < x ==> r == 1.0
  {
    Max(0.0, Min(1.0, x))
  }

  // Small facts of real multiplication, stated once so that larger proofs
  // can call them instead of leaving non-linear steps to the solver.

  lemma MulZero(a: real, b: real)
    ensures a * b == 0.0 <==> a == 0.0 || b == 0.0
  {
  }

  lemma MulPositive(a: real, b: real)
    requires 0.0 < a && 0.0 < b
    ensures 0.0 < a * b
  {
  }

  lemma MulNonNegative(a: real, b: real)
    requires 0.0 <= a && 0.0 <= b
    ensures 0.0 <= a * b
  {
  }

  lemma SquareNonNegative(a: real)
    ensures 0.0 <= a * a
    ensures a * a == 0.0 <==> a == 0.0
  {
    MulZero(a, a);
  }

  lemma CancelFactor(x: real, k: real)
    requires k != 0.0 && x * k == k
    ensures x == 1.0
  {
  }

  /** The law of sqrt for one argument, with its zero. */
  lemma SqrtLaw(m: Math, x: real)
    requires Lawful(m) && 0.0 <= x
    ensures 0.0 <= m.sqrt(x) && m.sqrt(x) * m.sqrt(x) == x
    ensures m.sqrt(x) == 0.0 <==> x == 0.0
  {
    assert SqrtLawAt(m, x);
    SquareNonNegative(m.sqrt(x));
  }

  /** The law of exp for one argument. */
  lemma ExpLaw(m: Math, y: real)
    requires Lawful(m) && y <= 0.0
    ensures 0.0 < m.exp(y) <= 1.0
  {
    assert ExpLawAt(m, y);
  }

  /** Division by a positive number keeps order. */
  lemma DivMonotone(a: real, b: real, r: real)
    requires 0.0 < r && a <= b
    ensures a / r <= b / r
  {
    var qa, qb := a / r, b / r;
    assert qa * r == a && qb * r == b;
  }

  /** A quotient by a positive number keeps the sign of the dividend. */
  lemma QuotientSign(a: real, r: real)
    requires 0.0 < r
    ensures 0.0 <= a ==> 0.0 <= a / r
  {
    if 0.0 <= a {
      DivMonotone(0.0, a, r);
    }
  }

  /** A fraction of a positive whole lies in [0, 1]. */
  lemma DivUnit(a: real, r: real)
    requires 0.0 < r && 0.0 <= a <= r
    ensures 0.0 <= a / r <= 1.0
  {
    DivMonotone(0.0, a, r);
    DivMonotone(a, r, r);
  }

  /** Squaring is strictly monotone on the non-negative reals. */
  lemma SquareMonotone(a: real, b: real)
    requires 0.0 <= a && 0.0 <= b
    ensures a < b <==> a * a < b * b
  {
    if a < b {
      var aa, ab, bb := a * a, a * b, b * b;
      assert aa <= ab;
      assert ab < bb;
    } else {
      var aa, ab, bb := a * a, a * b, b * b;
      assert bb <= ab;
      assert ab <= aa;
    }
  }

  /** sqrt is determined by its law: the root of q*q is q itself. */
  lemma SqrtOfSquare(m: Math, q: real)
    requires Lawful(m) && 0.0 <= q
    ensures m.sqrt(q * q) == q
  {
    SquareNonNegative(q);
    SqrtLaw(m, q * q);
    var s := m.sqrt(q * q);
    SquareMonotone(s, q);
    SquareMonotone(q, s);
  }

  /** sqrt is strictly monotone against a square: x > q*q implies sqrt(x) > q. */
  lemma SqrtAbove(m: Math, x: real, q: real)
    requires Lawful(m) && 0.0 <= q && q * q < x
    ensures q < m.sqrt(x)
  {
    SquareNonNegative(q);
    SqrtLaw(m, x);
    SquareMonotone(q, m.sqrt(x));
  }

  /** a*t*t + b*t + c, the quadratic a ray-sphere test solves. */
  function Quadratic(a: real, b: real, c: real, t: real): real {
    a * (t * t) + b * t + c
  }

  /** (u + v*t)^2 expanded. */
  lemma SquareOfLine(u: real, v: real, t: real)
    ensures (u + v * t) * (u + v * t) == u * u + 2.0 * ((u * v) * t) + (v * v) * (t * t)
  {
  }

  /** Lowering the constant term lowers the value by the same amount. */
  lemma QuadraticShift(a: real, b: real, c: real, k: real, t: real)
    ensures Quadratic(a, b, c - k, t) == Quadratic(a, b, c, t) - k
  {
  }

  /** With a negative discriminant a quadratic with a > 0 has no real root. */
  lemma QuadraticNoRoot(a: real, b: real, c: real, t: real)
    requires 0.0 < a && b * b - 4.0 * a * c < 0.0
    ensures 0.0 < Quadratic(a, b, c, t)
  {
    var u := 2.0 * a * t + b;
    var q := Quadratic(a, b, c, t);
    assert 4.0 * a * q == u * u - (b * b - 4.0 * a * c);
    SquareNonNegative(u);
    var fa := 4.0 * a;
    assert 0.0 < fa * q;
    if q <= 0.0 {
      MulNonNegative(fa, -q);
    }
  }

  /** With a non-negative discriminant whose root is s, the roots of a
      quadratic with a > 0 are exactly (-b - s)/2a <= (-b + s)/2a. */
  lemma QuadraticRoots(a: real, b: real, c: real, s: real, t: real)
    requires 0.0 < a && 0.0 <= s && s * s == b * b - 4.0 * a * c
    ensures (-b - s) / (2.0 * a) <= (-b + s) / (2.0 * a)
    ensures Quadratic(a, b, c, t) == 0.0 <==>
              t == (-b - s) / (2.0 * a) || t == (-b + s) / (2.0 * a)
  {
    var a2 := 2.0 * a;
    var t1, t2 := (-b - s) / a2, (-b + s) / a2;
    DivMonotone(-b - s, -b + s, a2);
    assert a2 * t1 == -b - s && a2 * t2 == -b + s;
    var u, w := a2 * (t - t1), a2 * (t - t2);
    assert u == a2 * t + b + s;
    assert w == a2 * t + b - s;
    var q := Quadratic(a, b, c, t);
    assert 4.0 * a * q == u * w;
    MulZero(u, w);
    MulZero(4.0 * a, q);
    MulZero(a2, t - t1);
    MulZero(a2, t - t2);
  }
}

=== FILE: objects.dfy ===
/**
 The scene objects of the tracer (lab_5/lab_5.cpp, classes Object, Sphere and
 Plane) and the Hit record an intersection test yields.

 The class hierarchy becomes one datatype with a variant per subclass; the
 virtual methods intersect, getDensity and getColor become functions that
 match on the variant.
 */
module Objects {
  import opened Numerics
  import opened Vectors

  datatype Option<T> = None | Some(value: T)

  /** The default base colour of every object. */
  const White: Vec3 := Vec3(1.0, 1.0, 1.0)

  /** Default medium densities of the Sphere and Plane constructors. */
  const DefaultSphereDensity: real := 0.1
  const DefaultPlaneDensity: real := 0.0

  /** A ray whose |n . d| is below this is treated as parallel to a plane. */
  const ParallelEpsilon: real := 0.000001

  /** Every object has a base colour and a medium density. A plane is the set
      of points p with normal . p + distance == 0. */
  datatype Object =
    | Sphere(color: Vec3, center: Vec3, radius: real, volumeDensity: real)
    | Plane(color: Vec3, normal: Vec3, distance: real, volumeDensity: real)

  /** An intersection: distance along the ray, the point, the surface normal
      there and the object's medium density. */
  datatype Hit = Hit(t: real, point: Vec3, normal: Vec3, density: real)

  /** The Sphere constructor stores its arguments as given; density and
      colour default to 0.1 and white. */
  function MakeSphere(center: Vec3, radius: real, density: real := DefaultSphereDensity,
                      color: Vec3 := White): (r: Object)
    ensures r.Sphere? && r.center == center && r.radius == radius
    ensures r.volumeDensity == density && r.color == color
  {
    Sphere(color, center, radius, density)
  }

  /** Without density and colour, a sphere holds 0.1 of white medium. */
  lemma SphereDefaults(center: Vec3, radius: real)
    ensures MakeSphere(center, radius).volumeDensity == 0.1
    ensures MakeSphere(center, radius).color == Vec3(1.0, 1.0, 1.0)
  {
  }

  /** A plane's normal as its constructor leaves it: unit length, or Zero when
      it was given a (near-)zero vector. */
  predicate NormalNormalized(o: Object) {
    o.Plane? ==> IsUnit(o.normal) || o.normal == Zero
  }

  /** The Plane constructor, which normalizes the normal it is given. */
  function MakePlane(m: Math, normal: Vec3, distance: real, density: real := DefaultPlaneDensity,
                     color: Vec3 := White): (r: Object)
    requires Lawful(m)
    ensures r.Plane? && NormalNormalized(r)
    ensures r.color == color && r.distance == distance && r.volumeDensity == density
    ensures Length(m, normal) < NormalizeEpsilon ==> r.normal == Zero
    ensures NormalizeEpsilon <= Length(m, normal) ==>
              IsUnit(r.normal) && Scale(r.normal, Length(m, normal)) == normal
    ensures IsUnit(normal) || normal == Zero ==> r.normal == normal
  {
    NormalizeKeeps(m, normal);
    Plane(color, Normalize(m, normal), distance, density)
  }

  /** Objects whose density is defined everywhere: a sphere of radius 0 would
      divide 0 by 0 at its centre. */
  predicate NonDegenerate(o: Object) {
    o.Sphere? ==> o.radius != 0.0
  }

  /** Object::getColor: the base colour, whatever the point. */
  function GetColor(o: Object, p: Vec3): Vec3 {
    o.color
  }

  lemma ColorIgnoresPoint(o: Object, p: Vec3, q: Vec3)
    ensures GetColor(o, p) == GetColor(o, q) == o.color
  {
  }

  /** The sphere's density profile: vd * (1 - dist/radius) up to the radius,
      0 beyond it. */
  function Falloff(vd: real, dist: real, radius: real): (r: real)
    requires 0.0 <= dist && radius != 0.0
    ensures radius < dist ==> r == 0.0
    ensures 0.0 < radius && dist == 0.0 ==> r == vd
    ensures dist == radius ==> r == 0.0
    ensures 0.0 <= vd ==> 0.0 <= r <= vd
  {
    if dist > radius then 0.0
    else
      DivUnit(dist, radius);
      var f := 1.0 - dist / radius;
      if 0.0 <= vd then
        MulNonNegative(vd, f);
        MulNonNegative(vd, 1.0 - f);
        vd * f
      else vd * f
  }

  /** Further from the centre never means more medium. */
  lemma FalloffMonotone(vd: real, dp: real, dq: real, radius: real)
    requires 0.0 <= vd && 0.0 <= dp <= dq && 0.0 < radius
    ensures Falloff(vd, dq, radius) <= Falloff(vd, dp, radius)
  {
    if dq <= radius {
      var fp, fq := 1.0 - dp / radius, 1.0 - dq / radius;
      DivMonotone(dp, dq, radius);
      MulNonNegative(vd, fp - fq);
    }
  }

  /** Half way to the surface the density is half its peak. */
  lemma FalloffHalfway(vd: real, radius: real)
    requires 0.0 < radius
    ensures Falloff(vd, radius / 2.0, radius) == vd / 2.0
  {
    var h := radius / 2.0;
    assert h / radius == 0.5 by {
      assert h == 0.5 * radius;
    }
  }

  /** Sphere::getDensity and Plane::getDensity: the medium density at `p`.
      Inside a sphere it falls linearly from volumeDensity at the centre to 0
      at the surface and is 0 outside; a plane's density is uniform. */
  function GetDensity(m: Math, o: Object, p: Vec3): (r: real)
    requires Lawful(m) && NonDegenerate(o)
    ensures o.Plane? ==> r == o.volumeDensity
    ensures o.Sphere? ==> r == Falloff(o.volumeDensity, Length(m, Sub(p, o.center)), o.radius)
    ensures o.Sphere? && o.radius < Length(m, Sub(p, o.center)) ==> r == 0.0
    ensures o.Sphere? && Length(m, Sub(p, o.center)) == o.radius ==> r == 0.0
    ensures o.Sphere? && 0.0 < o.radius && p == o.center ==> r == o.volumeDensity
    ensures 0.0 <= o.volumeDensity ==> 0.0 <= r <= o.volumeDensity
  {
    match o
    case Sphere(_, center, radius, vd) => Falloff(vd, Length(m, Sub(p, center)), radius)
    case Plane(_, _, _, vd) => vd
  }

  /** Inside a sphere with non-negative density, a point nearer the centre
      never has less medium than one further out. */
  lemma SphereDensityMonotone(m: Math, o: Object, p: Vec3, q: Vec3)
    requires Lawful(m) && o.Sphere? && 0.0 < o.radius && 0.0 <= o.volumeDensity
    requires Length(m, Sub(p, o.center)) <= Length(m, Sub(q, o.center))
    ensures GetDensity(m, o, q) <= GetDensity(m, o, p)
  {
    FalloffMonotone(o.volumeDensity, Length(m, Sub(p, o.center)), Length(m, Sub(q, o.center)), o.radius);
  }

  /** Half way from the centre to the surface the density is half its peak. */
  lemma SphereDensityHalfway(m: Math, o: Object, p: Vec3)
    requires Lawful(m) && o.Sphere? && 0.0 < o.radius
    requires Length(m, Sub(p, o.center)) == o.radius / 2.0
    ensures GetDensity(m, o, p) == o.volumeDensity / 2.0
  {
    FalloffHalfway(o.volumeDensity, o.radius);
  }

  /** Whether `p` lies on the object's surface. */
  predicate OnSurface(o: Object, p: Vec3) {
    match o
    case Sphere(_, center, radius, _) => Dot(Sub(p, center), Sub(p, center)) == radius * radius
    case Plane(_, normal, distance, _) => Dot(normal, p) + distance == 0.0
  }

  /** `h` is a hit of `ray` on `o` at a non-negative distance. */
  predicate HitOn(o: Object, ray: Ray, h: Hit) {
    0.0 <= h.t && h.point == PointAt(ray, h.t) && OnSurface(o, h.point)
  }

  /** The coefficients a, b, c of |origin + t*direction - center|^2 - radius^2. */
  function SphereA(o: Object, ray: Ray): real
    requires o.Sphere?
  {
    Dot(ray.direction, ray.direction)
  }

  function SphereB(o: Object, ray: Ray): real
    requires o.Sphere?
  {
    2.0 * Dot(Sub(ray.origin, o.center), ray.direction)
  }

  function SphereC(o: Object, ray: Ray): real
    requires o.Sphere?
  {
    Dot(Sub(ray.origin, o.center), Sub(ray.origin, o.center)) - o.radius * o.radius
  }

  function SphereDiscriminant(o: Object, ray: Ray): real
    requires o.Sphere?
  {
    SphereB(o, ray) * SphereB(o, ray) - 4.0 * SphereA(o, ray) * SphereC(o, ray)
  }

  /** The nearer and the further root, (-b -+ sqrt(disc)) / 2a. */
  function NearRoot(m: Math, o: Object, ray: Ray): real
    requires o.Sphere? && ray.direction != Zero
  {
    DotSelf(ray.direction);
    (-SphereB(o, ray) - m.sqrt(SphereDiscriminant(o, ray))) / (2.0 * SphereA(o, ray))
  }

  function FarRoot(m: Math, o: Object, ray: Ray): real
    requires o.Sphere? && ray.direction != Zero
  {
    DotSelf(ray.direction);
    (-SphereB(o, ray) + m.sqrt(SphereDiscriminant(o, ray))) / (2.0 * SphereA(o, ray))
  }

  /** The point at distance t lies on the sphere exactly when t is a root of
      the sphere's quadratic. */
  lemma SphereQuadratic(o: Object, ray: Ray, t: real)
    requires o.Sphere?
    ensures OnSurface(o, PointAt(ray, t)) <==>
              Quadratic(SphereA(o, ray), SphereB(o, ray), SphereC(o, ray), t) == 0.0
  {
    var oc, d := Sub(ray.origin, o.center), ray.direction;
    PointAtFrom(ray, o.center, t);
    DotAlongLine(oc, d, t);
    QuadraticShift(Dot(d, d), 2.0 * Dot(oc, d), Dot(oc, oc), o.radius * o.radius, t);
  }

  /** A negative discriminant: no point of the line is on the sphere. */
  lemma SphereMiss(o: Object, ray: Ray)
    requires o.Sphere? && ray.direction != Zero && SphereDiscriminant(o, ray) < 0.0
    ensures forall t :: !OnSurface(o, PointAt(ray, t))
  {
    DotSelf(ray.direction);
    forall t
      ensures !OnSurface(o, PointAt(ray, t))
    {
      SphereQuadratic(o, ray, t);
      QuadraticNoRoot(SphereA(o, ray), SphereB(o, ray), SphereC(o, ray), t);
    }
  }

  /** Otherwise the line meets the sphere exactly at its two roots. */
  lemma SphereRoots(m: Math, o: Object, ray: Ray)
    requires Lawful(m) && o.Sphere? && ray.direction != Zero && 0.0 <= SphereDiscriminant(o, ray)
    ensures NearRoot(m, o, ray) <= FarRoot(m, o, ray)
    ensures forall t :: OnSurface(o, PointAt(ray, t)) <==>
                          t == NearRoot(m, o, ray) || t == FarRoot(m, o, ray)
  {
    DotSelf(ray.direction);
    var a, b, c := SphereA(o, ray), SphereB(o, ray), SphereC(o, ray);
    var s := m.sqrt(SphereDiscriminant(o, ray));
    SqrtLaw(m, SphereDiscriminant(o, ray));
    QuadraticRoots(a, b, c, s, 0.0);
    forall t
      ensures OnSurface(o, PointAt(ray, t)) <==>
                t == NearRoot(m, o, ray) || t == FarRoot(m, o, ray)
    {
      SphereQuadratic(o, ray, t);
      QuadraticRoots(a, b, c, s, t);
    }
  }

  /** Sphere::intersect: the nearest intersection at a non-negative distance.
      The nearer root is taken when it is not negative (the origin is outside),
      else the further one (the origin is inside), else there is no hit. */
  function IntersectSphere(m: Math, o: Object, ray: Ray): (r: Option<Hit>)
    requires Lawful(m) && o.Sphere? && ray.direction != Zero
    ensures SphereDiscriminant(o, ray) < 0.0 ==> r.None?
    ensures r.Some? ==> HitOn(o, ray, r.value)
    ensures r.Some? ==> r.value.t == NearRoot(m, o, ray) || r.value.t == FarRoot(m, o, ray)
    ensures r.Some? ==> r.value.normal == Normalize(m, Sub(r.value.point, o.center))
    ensures r.Some? ==> r.value.density == o.volumeDensity
    ensures r.Some? ==> forall t :: 0.0 <= t && OnSurface(o, PointAt(ray, t)) ==> r.value.t <= t
    ensures r.None? ==> forall t :: 0.0 <= t ==> !OnSurface(o, PointAt(ray, t))
  {
    if SphereDiscriminant(o, ray) < 0.0 then
      SphereMiss(o, ray);
      None
    else
      SphereRoots(m, o, ray);
      var near := NearRoot(m, o, ray);
      var t := if near < 0.0 then FarRoot(m, o, ray) else near;
      if t < 0.0 then None
      else
        var point := PointAt(ray, t);
        Some(Hit(t, point, Normalize(m, Sub(point, o.center)), o.volumeDensity))
  }

  /** Along the ray, normal . p + distance changes linearly with t. */
  lemma PlaneLinear(o: Object, ray: Ray, t: real)
    requires o.Plane?
    ensures Dot(o.normal, PointAt(ray, t)) + o.distance ==
              (Dot(o.normal, ray.origin) + o.distance) + t * Dot(o.normal, ray.direction)
  {
  }

  /** Plane::intersect: solves the linear equation; a ray (nearly) parallel to
      the plane, or one that meets it behind its origin, does not hit. */
  function IntersectPlane(o: Object, ray: Ray): (r: Option<Hit>)
    requires o.Plane?
    ensures Abs(Dot(o.normal, ray.direction)) < ParallelEpsilon ==> r.None?
    ensures r.Some? ==> HitOn(o, ray, r.value)
    ensures r.Some? ==> r.value.normal == o.normal && r.value.density == o.volumeDensity
    ensures r.Some? ==> forall t :: OnSurface(o, PointAt(ray, t)) ==> t == r.value.t
    ensures r.None? && ParallelEpsilon <= Abs(Dot(o.normal, ray.direction)) ==>
              forall t :: 0.0 <= t ==> !OnSurface(o, PointAt(ray, t))
  {
    var denom := Dot(o.normal, ray.direction);
    if Abs(denom) < ParallelEpsilon then None
    else
      var t := -(Dot(o.normal, ray.origin) + o.distance) / denom;
      assert forall s :: OnSurface(o, PointAt(ray, s)) <==> s == t by {
        forall s
          ensures OnSurface(o, PointAt(ray, s)) <==> s == t
        {
          PlaneLinear(o, ray, s);
        }
      }
      if t < 0.0 then None
      else Some(Hit(t, PointAt(ray, t), o.normal, o.volumeDensity))
  }

  /** Object::intersect, dispatched on the variant. */
  function Intersect(m: Math, o: Object, ray: Ray): (r: Option<Hit>)
    requires Lawful(m) && (o.Sphere? ==> ray.direction != Zero)
    ensures r.Some? ==> HitOn(o, ray, r.value) && r.value.density == o.volumeDensity
    ensures r.Some? ==> forall t :: 0.0 <= t && OnSurface(o, PointAt(ray, t)) ==> r.value.t <= t
    ensures r.None? && (o.Plane? ==> ParallelEpsilon <= Abs(Dot(o.normal, ray.direction))) ==>
              forall t :: 0.0 <= t ==> !OnSurface(o, PointAt(ray, t))
  {
    match o
    case Sphere(_, _, _, _) => IntersectSphere(m, o, ray)
    case Plane(_, _, _, _) => IntersectPlane(o, ray)
  }
}

=== FILE: scene.dfy ===
/**
 The Scene of the tracer (lab_5/lab_5.cpp, class Scene) without its ray
 march: the objects in insertion order, one point light, and the two edits
 the window's key handlers make between renders.

 The source stores owning pointers and replaces an object by deleting it and
 constructing a new one; here the objects are a sequence of values and an
 edit yields a new Scene.
 */
module Scenes {
  import opened Numerics
  import opened Vectors
  import opened Objects

  datatype Scene = Scene(objects: seq<Object>, lightPos: Vec3, lightIntensity: real)

  /** Whether an edit was carried out, or refused (and logged) because the
      index does not name an object. */
  datatype Status = Applied | WrongIndex

  datatype Adjusted = Adjusted(scene: Scene, status: Status)

  /** A new scene holds no objects. */
  function NewScene(lightPos: Vec3, intensity: real): (r: Scene)
    ensures |r.objects| == 0
    ensures r.lightPos == lightPos && r.lightIntensity == intensity
  {
    Scene([], lightPos, intensity)
  }

  /** Scene::addObject: the object goes last, so objects keep the index they
      were added at. */
  function AddObject(s: Scene, o: Object): (r: Scene)
    ensures |r.objects| == |s.objects| + 1 && r.objects[|s.objects|] == o
    ensures forall i :: 0 <= i < |s.objects| ==> r.objects[i] == s.objects[i]
    ensures r.lightPos == s.lightPos && r.lightIntensity == s.lightIntensity
  {
    s.(objects := s.objects + [o])
  }

  predicate InRange(s: Scene, index: int) {
    0 <= index < |s.objects|
  }

  /** `o` rebuilt by its constructor with a new medium density, as
      adjustDensity does; a plane's constructor normalizes the normal again. */
  function WithDensity(m: Math, o: Object, density: real): (r: Object)
    requires Lawful(m)
    ensures r.Sphere? <==> o.Sphere?
    ensures r.volumeDensity == density && r.color == o.color
    ensures o.Sphere? ==> r.center == o.center && r.radius == o.radius
    ensures o.Plane? ==> r.distance == o.distance && NormalNormalized(r)
    ensures o.Plane? ==> r.normal == Normalize(m, o.normal)
    ensures NormalNormalized(o) ==> r == o.(volumeDensity := density)
  {
    match o
    case Sphere(color, center, radius, _) => MakeSphere(center, radius, density, color)
    case Plane(color, normal, distance, _) => MakePlane(m, normal, distance, density, color)
  }

  /** Scene::adjustDensity: the object at `index` gets density
      max(0, old + delta), rebuilt through its constructor; every other
      object, the light and the order stay as they were. An index outside the
      scene changes nothing and is reported. */
  function AdjustDensity(m: Math, s: Scene, index: int, delta: real): (r: Adjusted)
    requires Lawful(m)
    ensures !InRange(s, index) ==> r == Adjusted(s, WrongIndex)
    ensures InRange(s, index) ==> r.status == Applied
    ensures r.scene.lightPos == s.lightPos && r.scene.lightIntensity == s.lightIntensity
    ensures |r.scene.objects| == |s.objects|
    ensures forall j :: 0 <= j < |s.objects| && j != index ==> r.scene.objects[j] == s.objects[j]
    ensures InRange(s, index) ==>
              var before, after := s.objects[index], r.scene.objects[index];
              && after.volumeDensity == Max(0.0, before.volumeDensity + delta)
              && 0.0 <= after.volumeDensity
              && after.color == before.color
              && (after.Sphere? <==> before.Sphere?)
              && (before.Sphere? ==> after.center == before.center && after.radius == before.radius)
              && (before.Plane? ==> after.distance == before.distance)
              && (before.Plane? ==> after.normal == Normalize(m, before.normal))
              && (NormalNormalized(before) ==> after == before.(volumeDensity := after.volumeDensity))
  {
    if !InRange(s, index) then Adjusted(s, WrongIndex)
    else
      var o := s.objects[index];
      var o' := WithDensity(m, o, Max(0.0, o.volumeDensity + delta));
      Adjusted(s.(objects := s.objects[index := o']), Applied)
  }

  /** Every channel of `c` lies in [0, 1]. */
  predicate InUnitCube(c: Vec3) {
    0.0 <= c.x <= 1.0 && 0.0 <= c.y <= 1.0 && 0.0 <= c.z <= 1.0
  }

  /** Old colour plus delta, each channel clamped to [0, 1]; a sum already in
      range is kept as it is. */
  function ClampedSum(color: Vec3, delta: Vec3): (r: Vec3)
    ensures InUnitCube(r)
    ensures InUnitCube(Add(color, delta)) ==> r == Add(color, delta)
  {
    var sum := Add(color, delta);
    Vec3(Clamp01(sum.x), Clamp01(sum.y), Clamp01(sum.z))
  }

  /** Scene::adjustColor: the object at `index` gets the clamped colour, set
      in place; its geometry and density, every other object, the light and
      the order stay as they were. An index outside the scene changes nothing
      and is reported. */
  function AdjustColor(s: Scene, index: int, delta: Vec3): (r: Adjusted)
    ensures !InRange(s, index) ==> r == Adjusted(s, WrongIndex)
    ensures InRange(s, index) ==> r.status == Applied
    ensures r.scene.lightPos == s.lightPos && r.scene.lightIntensity == s.lightIntensity
    ensures |r.scene.objects| == |s.objects|
    ensures forall j :: 0 <= j < |s.objects| && j != index ==> r.scene.objects[j] == s.objects[j]
    ensures InRange(s, index) ==>
              var before, after := s.objects[index], r.scene.objects[index];
              && after == before.(color := after.color)
              && after.color.x == Clamp01(before.color.x + delta.x)
              && after.color.y == Clamp01(before.color.y + delta.y)
              && after.color.z == Clamp01(before.color.z + delta.z)
  {
    if !InRange(s, index) then Adjusted(s, WrongIndex)
    else
      var o := s.objects[index];
      Adjusted(s.(objects := s.objects[index := o.(color := ClampedSum(o.color, delta))]), Applied)
  }

  /** What the tracer expects of its objects: non-negative densities, spheres
      of positive radius, planes with a normalized normal. */
  predicate ValidObject(o: Object) {
    && 0.0 <= o.volumeDensity
    && (o.Sphere? ==> 0.0 < o.radius)
    && NormalNormalized(o)
  }

  predicate ValidScene(s: Scene) {
    forall i :: 0 <= i < |s.objects| ==> ValidObject(s.objects[i])
  }

  lemma AddObjectKeepsValid(s: Scene, o: Object)
    requires ValidScene(s) && ValidObject(o)
    ensures ValidScene(AddObject(s, o))
  {
  }

  /** Density edits keep a scene valid, whatever the delta. */
  lemma AdjustDensityKeepsValid(m: Math, s: Scene, index: int, delta: real)
    requires Lawful(m) && ValidScene(s)
    ensures ValidScene(AdjustDensity(m, s, index, delta).scene)
  {
  }

  /** Colour edits keep a scene valid, whatever the delta. */
  lemma AdjustColorKeepsValid(s: Scene, index: int, delta: Vec3)
    requires ValidScene(s)
    ensures ValidScene(AdjustColor(s, index, delta).scene)
  {
  }

  /** A zero density delta changes nothing when the target's density is
      already non-negative (and a plane's normal normalized). */
  lemma AdjustDensityByZero(m: Math, s: Scene, index: int)
    requires Lawful(m)
    requires InRange(s, index) ==>
               0.0 <= s.objects[index].volumeDensity && NormalNormalized(s.objects[index])
    ensures AdjustDensity(m, s, index, 0.0).scene == s
  {
    if InRange(s, index) {
      var o := s.objects[index];
      assert o == o.(volumeDensity := Max(0.0, o.volumeDensity + 0.0));
      assert s.objects[index := o] == s.objects;
    }
  }

  /** A zero colour delta changes nothing when the colour is already in range. */
  lemma AdjustColorByZero(s: Scene, index: int)
    requires InRange(s, index) ==> InUnitCube(s.objects[index].color)
    ensures AdjustColor(s, index, Zero).scene == s
  {
    if InRange(s, index) {
      var o := s.objects[index];
      assert Add(o.color, Zero) == o.color;
      assert s.objects[index := o] == s.objects;
    }
  }

  /** Repeating a density edit with delta 0 after any edit changes nothing. */
  lemma AdjustDensitySettles(m: Math, s: Scene, index: int, delta: real)
    requires Lawful(m)
    ensures var once := AdjustDensity(m, s, index, delta).scene;
            AdjustDensity(m, once, index, 0.0).scene == once
  {
    AdjustDensityByZero(m, AdjustDensity(m, s, index, delta).scene, index);
  }

  /** After any colour edit the colour is in range, so a zero edit changes nothing. */
  lemma AdjustColorSettles(s: Scene, index: int, delta: Vec3)
    ensures var once := AdjustColor(s, index, delta).scene;
            AdjustColor(once, index, Zero).scene == once
  {
    AdjustColorByZero(AdjustColor(s, index, delta).scene, index);
  }

  /** A sphere of density 0.1 lowered three times by 1.0 ends at exactly 0. */
  lemma DensityFloorExample(m: Math)
    requires Lawful(m)
    ensures var s0 := AddObject(NewScene(Vec3(5.0, 5.0, 5.0), 50.0), MakeSphere(Vec3(0.0, 0.0, 5.0), 1.0, 0.1));
            var s1 := AdjustDensity(m, s0, 0, -1.0).scene;
            var s2 := AdjustDensity(m, s1, 0, -1.0).scene;
            var s3 := AdjustDensity(m, s2, 0, -1.0).scene;
            s3.objects[0].volumeDensity == 0.0
  {
  }

  /** Clamping at both ends: (0.9,0.9,0.9) + 0.5 gives white, and
      (0.05,0,0) - (1,0,0) gives black. */
  lemma ColorClampExample()
    ensures var s := AddObject(NewScene(Zero, 1.0), MakeSphere(Zero, 1.0, 0.1, Vec3(0.9, 0.9, 0.9)));
            AdjustColor(s, 0, Vec3(0.5, 0.5, 0.5)).scene.objects[0].color == Vec3(1.0, 1.0, 1.0)
    ensures var s := AddObject(NewScene(Zero, 1.0), MakeSphere(Zero, 1.0, 0.1, Vec3(0.05, 0.0, 0.0)));
            AdjustColor(s, 0, Vec3(-1.0, 0.0, 0.0)).scene.objects[0].color == Zero
  {
  }

  /** Index 5 in a three-object scene is refused and changes nothing. */
  lemma WrongIndexExample(m: Math, a: Object, b: Object, c: Object)
    requires Lawful(m)
    ensures var s := AddObject(AddObject(AddObject(NewScene(Zero, 1.0), a), b), c);
            AdjustDensity(m, s, 5, 0.05) == Adjusted(s, WrongIndex)
            && AdjustColor(s, 5, Vec3(0.1, 0.0, 0.0)) == Adjusted(s, WrongIndex)
  {
  }
}

=== FILE: vectors.dfy ===
/**
 Vec3 and Ray of the tracer (lab_5/lab_5.cpp, struct Vec3 and struct Ray):
 immutable triples of reals with the arithmetic the tracer uses.
 */
module Vectors {
  import opened Numerics

  datatype Vec3 = Vec3(x: real, y: real, z: real)

  const Zero: Vec3 := Vec3(0.0, 0.0, 0.0)

  /** Vectors shorter than this normalize to Zero (the tracer's 1e-9f). */
  const NormalizeEpsilon: real := 0.000000001

  function Add(u: Vec3, v: Vec3): Vec3 {
    Vec3(u.x + v.x, u.y + v.y, u.z + v.z)
  }

  function Sub(u: Vec3, v: Vec3): Vec3 {
    Vec3(u.x - v.x, u.y - v.y, u.z - v.z)
  }

  /** `v * f` in the tracer. */
  function Scale(v: Vec3, f: real): Vec3 {
    Vec3(v.x * f, v.y * f, v.z * f)
  }

  /** `v / f` in the tracer; every caller divides by a non-zero value. */
  function Div(v: Vec3, f: real): Vec3
    requires f != 0.0
  {
    Vec3(v.x / f, v.y / f, v.z / f)
  }

  function Dot(u: Vec3, v: Vec3): real {
    u.x * v.x + u.y * v.y + u.z * v.z
  }

  predicate IsUnit(v: Vec3) {
    Dot(v, v) == 1.0
  }

  /** Division undoes scaling. */
  lemma DivScale(v: Vec3, f: real)
    requires f != 0.0
    ensures Div(Scale(v, f), f) == v
  {
  }

  /** Scaling distributes over a sum of factors. */
  lemma ScaleAdd(v: Vec3, a: real, b: real)
    ensures Add(Scale(v, a), Scale(v, b)) == Scale(v, a + b)
  {
    assert v.x * a + v.x * b == v.x * (a + b);
    assert v.y * a + v.y * b == v.y * (a + b);
    assert v.z * a + v.z * b == v.z * (a + b);
  }

  /** The squared length is non-negative and vanishes only on Zero. */
  lemma DotSelf(v: Vec3)
    ensures 0.0 <= Dot(v, v)
    ensures Dot(v, v) == 0.0 <==> v == Zero
  {
    SquareNonNegative(v.x);
    SquareNonNegative(v.y);
    SquareNonNegative(v.z);
  }

  /** Euclidean length, sqrt(v . v). */
  function Length(m: Math, v: Vec3): (r: real)
    requires Lawful(m)
    ensures 0.0 <= r && r * r == Dot(v, v)
    ensures r == 0.0 <==> v == Zero
  {
    DotSelf(v);
    SqrtLaw(m, Dot(v, v));
    m.sqrt(Dot(v, v))
  }

  /** The squared length of u + v*t as a quadratic in t. */
  lemma DotAlongLine(u: Vec3, v: Vec3, t: real)
    ensures Dot(Add(u, Scale(v, t)), Add(u, Scale(v, t)))
            == Quadratic(Dot(v, v), 2.0 * Dot(u, v), Dot(u, u), t)
  {
    var w := Add(u, Scale(v, t));
    SquareOfLine(u.x, v.x, t);
    SquareOfLine(u.y, v.y, t);
    SquareOfLine(u.z, v.z, t);
    var px, py, pz := u.x * v.x, u.y * v.y, u.z * v.z;
    var qx, qy, qz := v.x * v.x, v.y * v.y, v.z * v.z;
    var tt := t * t;
    assert (2.0 * Dot(u, v)) * t == 2.0 * (px * t) + 2.0 * (py * t) + 2.0 * (pz * t);
    assert Dot(v, v) * tt == qx * tt + qy * tt + qz * tt;
    assert Dot(w, w) == w.x * w.x + w.y * w.y + w.z * w.z;
  }

  /** Scaling a vector by 1/f divides its squared length by f*f. */
  lemma DotDiv(v: Vec3, f: real)
    requires f != 0.0
    ensures Dot(Div(v, f), Div(v, f)) * (f * f) == Dot(v, v)
  {
    var w := Div(v, f);
    assert w.x * f == v.x && w.y * f == v.y && w.z * f == v.z;
    var wx, wy, wz := w.x * w.x, w.y * w.y, w.z * w.z;
    assert wx * (f * f) == v.x * v.x;
    assert wy * (f * f) == v.y * v.y;
    assert wz * (f * f) == v.z * v.z;
  }

  /** Vec3::normalize: the unit vector along `v`, or Zero for (near-)zero `v`. */
  function Normalize(m: Math, v: Vec3): (r: Vec3)
    requires Lawful(m)
    ensures Length(m, v) < NormalizeEpsilon ==> r == Zero
    ensures NormalizeEpsilon <= Length(m, v) ==> IsUnit(r) && Scale(r, Length(m, v)) == v
    ensures IsUnit(r) || r == Zero
  {
    var len := Length(m, v);
    if len < NormalizeEpsilon then Zero
    else
      DotDiv(v, len);
      MulPositive(len, len);
      assert len * len == Dot(v, v);
      assert Dot(Div(v, len), Div(v, len)) * (len * len) == Dot(v, v);
      assert len * len != 0.0;
      CancelFactor(Dot(Div(v, len), Div(v, len)), len * len);
      Div(v, len)
  }

  /** Normalizing a unit or zero vector gives it back; so normalizing twice
      is the same as normalizing once. */
  lemma NormalizeFixes(m: Math, v: Vec3)
    requires Lawful(m)
    requires IsUnit(v) || v == Zero
    ensures Normalize(m, v) == v
  {
    if v == Zero {
      SqrtOfSquare(m, 0.0);
    } else {
      SqrtOfSquare(m, 1.0);
      assert Length(m, v) == 1.0;
    }
  }

  /** NormalizeFixes for any vector, as an implication. */
  lemma NormalizeKeeps(m: Math, v: Vec3)
    requires Lawful(m)
    ensures IsUnit(v) || v == Zero ==> Normalize(m, v) == v
  {
    if IsUnit(v) || v == Zero {
      NormalizeFixes(m, v);
    }
  }

  lemma NormalizeIdempotent(m: Math, v: Vec3)
    requires Lawful(m)
    ensures Normalize(m, Normalize(m, v)) == Normalize(m, v)
  {
    NormalizeFixes(m, Normalize(m, v));
  }

  /** A ray: an origin and a direction that is a unit vector, or Zero when it
      was built from a degenerate direction. */
  datatype Ray = Ray(origin: Vec3, direction: Vec3)

  /** The Ray constructor, which normalizes the direction. */
  function MakeRay(m: Math, origin: Vec3, direction: Vec3): (r: Ray)
    requires Lawful(m)
    ensures r.origin == origin
    ensures Length(m, direction) < NormalizeEpsilon ==> r.direction == Zero
    ensures NormalizeEpsilon <= Length(m, direction) ==>
              IsUnit(r.direction) && Scale(r.direction, Length(m, direction)) == direction
    ensures IsUnit(r.direction) || r.direction == Zero
    ensures IsUnit(direction) ==> r.direction == direction
  {
    NormalizeKeeps(m, direction);
    Ray(origin, Normalize(m, direction))
  }

  /** The point `origin + direction * t`. */
  function PointAt(ray: Ray, t: real): Vec3 {
    Add(ray.origin, Scale(ray.direction, t))
  }

  /** Seen from `c`, the ray's points are (origin - c) + direction * t. */
  lemma PointAtFrom(ray: Ray, c: Vec3, t: real)
    ensures Sub(PointAt(ray, t), c) == Add(Sub(ray.origin, c), Scale(ray.direction, t))
  {
  }
}

=== FILE: volumetric.dfy ===
/**
 Scene::calculateVolumetricLight (lab_5/lab_5.cpp): the ray march that
 integrates single-scattered light from the point light along a ray through
 the scene's density field, with Beer-Lambert attenuation.

 `March` is the march as a function of the number of samples taken; the
 method `CalculateVolumetricLight` is the source's loop, proved to compute it.
 */
module Volumetric {
  import opened Numerics
  import opened Vectors
  import opened Objects
  import opened Scenes

  /** At or below this much total light the result colour is black (the
      tracer's 1e-9f). */
  const LightEpsilon: real := 0.000000001

  /** The sample count the tracer uses when none is given. */
  const DefaultSamples: nat := 15

  /** Every object's density can be sampled anywhere. */
  predicate Samplable(objects: seq<Object>) {
    forall i :: 0 <= i < |objects| ==> NonDegenerate(objects[i])
  }

  /** What one sample point gathers from the objects: the summed density and
      the density-weighted sum of the colours of the objects with medium there. */
  datatype Sample = Sample(density: real, weightedColor: Vec3)

  /** The inner loop of calculateVolumetricLight over the objects, in
      insertion order. */
  function Gather(m: Math, objects: seq<Object>, p: Vec3): (r: Sample)
    requires Lawful(m) && Samplable(objects)
    ensures (forall i :: 0 <= i < |objects| ==> 0.0 <= objects[i].volumeDensity) ==> 0.0 <= r.density
    ensures (forall i :: 0 <= i < |objects| ==> objects[i].volumeDensity == 0.0) ==> r == Sample(0.0, Zero)
    decreases |objects|
  {
    if |objects| == 0 then Sample(0.0, Zero)
    else
      var prev := Gather(m, objects[..|objects| - 1], p);
      var last := objects[|objects| - 1];
      var d := GetDensity(m, last, p);
      Sample(prev.density + d,
             if d > 0.0 then Add(prev.weightedColor, Scale(GetColor(last, p), d)) else prev.weightedColor)
  }

  /** At `p` no object has negative density and every object with medium
      has colour `c`. */
  predicate TintedAt(m: Math, objects: seq<Object>, p: Vec3, c: Vec3)
    requires Lawful(m) && Samplable(objects)
  {
    forall i :: 0 <= i < |objects| ==>
      0.0 <= GetDensity(m, objects[i], p) && (0.0 < GetDensity(m, objects[i], p) ==> objects[i].color == c)
  }

  /** Where the medium is all of colour `c`, the weighted colour is `c`
      scaled by the total density. */
  lemma {:induction false} GatherUniformColor(m: Math, objects: seq<Object>, p: Vec3, c: Vec3)
    requires Lawful(m) && Samplable(objects) && TintedAt(m, objects, p, c)
    ensures Gather(m, objects, p).weightedColor == Scale(c, Gather(m, objects, p).density)
    decreases |objects|
  {
    if |objects| > 0 {
      var init := objects[..|objects| - 1];
      assert forall i :: 0 <= i < |init| ==> init[i] == objects[i];
      GatherUniformColor(m, init, p, c);
      var prev := Gather(m, init, p);
      var d := GetDensity(m, objects[|objects| - 1], p);
      ScaleAdd(c, prev.density, d);
    }
  }

  /** A scene whose objects all have colour `c` and no negative density is
      tinted `c` everywhere. */
  lemma UniformTint(m: Math, objects: seq<Object>, p: Vec3, c: Vec3)
    requires Lawful(m) && Samplable(objects)
    requires forall i :: 0 <= i < |objects| ==> 0.0 <= objects[i].volumeDensity && objects[i].color == c
    ensures TintedAt(m, objects, p, c)
  {
  }

  /** The state the march carries from sample to sample. */
  datatype MarchState = MarchState(totalLight: real, accumulatedColor: Vec3, transmittance: real)

  /** Nothing gathered yet, and all light transmitted. */
  const Start: MarchState := MarchState(0.0, Zero, 1.0)

  /** maxDist / numSamples. With no samples the loop never runs and the step
      is never used. */
  function StepSize(maxDist: real, numSamples: int): (r: real)
    ensures 0.0 <= maxDist ==> 0.0 <= r
  {
    if 0 < numSamples then
      QuotientSign(maxDist, numSamples as real);
      maxDist / numSamples as real
    else 0.0
  }

  /** How many samples the loop takes: none for a non-positive count. */
  function SampleCount(numSamples: int): (r: nat)
    ensures 0 < numSamples ==> r == numSamples
    ensures numSamples <= 0 ==> r == 0
  {
    if 0 < numSamples then numSamples else 0
  }

  /** Sample i lies at distance i * stepSize along the ray; sample 0 is the origin. */
  function SamplePoint(ray: Ray, stepSize: real, i: nat): Vec3 {
    PointAt(ray, (i as real) * stepSize)
  }

  /** If sample i has medium, the light is not there: the one place where
      the tracer would divide by a zero distance. */
  predicate ClearAt(m: Math, scene: Scene, ray: Ray, stepSize: real, i: nat)
    requires Lawful(m) && Samplable(scene.objects)
  {
    0.0 < Gather(m, scene.objects, SamplePoint(ray, stepSize, i)).density
    ==> SamplePoint(ray, stepSize, i) != scene.lightPos
  }

  /** ClearAt for each of the first n samples. */
  predicate LightClear(m: Math, scene: Scene, ray: Ray, stepSize: real, n: nat)
    requires Lawful(m) && Samplable(scene.objects)
    decreases n
  {
    0 < n ==> LightClear(m, scene, ray, stepSize, n - 1) && ClearAt(m, scene, ray, stepSize, n - 1)
  }

  /** intensity / dist^2, the light arriving at `p` from the point light:
      the inverse-square law. */
  function Irradiance(m: Math, intensity: real, p: Vec3, lightPos: Vec3): (r: real)
    requires Lawful(m) && p != lightPos
    ensures 0.0 <= intensity ==> 0.0 <= r
    ensures r * Dot(Sub(lightPos, p), Sub(lightPos, p)) == intensity
  {
    var distToLight := Length(m, Sub(lightPos, p));
    MulZero(distToLight, distToLight);
    MulNonNegative(distToLight, distToLight);
    QuotientSign(intensity, distToLight * distToLight);
    intensity / (distToLight * distToLight)
  }

  /** exp(-density * stepSize), the Beer-Lambert factor by which a step
      through the medium lowers the transmittance: in (0, 1] for a positive
      density and a non-negative step. */
  function Attenuation(m: Math, density: real, stepSize: real): (r: real)
    requires Lawful(m) && 0.0 < density
    ensures 0.0 <= stepSize ==> 0.0 < r <= 1.0
  {
    if 0.0 <= stepSize then
      MulNonNegative(density, stepSize);
      ExpLaw(m, -density * stepSize);
      m.exp(-density * stepSize)
    else m.exp(-density * stepSize)
  }

  lemma ProductSign(a: real, b: real, c: real, d: real)
    requires 0.0 < a
    ensures 0.0 <= b && 0.0 <= c && 0.0 <= d ==> 0.0 <= a * b * c * d
  {
    if 0.0 <= b && 0.0 <= c && 0.0 <= d {
      MulNonNegative(a, b);
      MulNonNegative(a * b, c);
      MulNonNegative(a * b * c, d);
    }
  }

  /** Multiplying a positive number by a factor in (0, 1] keeps it positive
      and does not raise it. */
  lemma ShrinkingFactor(t: real, e: real)
    ensures 0.0 < t && 0.0 < e <= 1.0 ==> 0.0 < t * e <= t
  {
    if 0.0 < t && 0.0 < e <= 1.0 {
      MulPositive(t, e);
      MulNonNegative(t, 1.0 - e);
    }
  }

  /** The light one sample with medium scatters towards the eye:
      density * irradiance * stepSize * transmittance. */
  function Contribution(density: real, irradiance: real, stepSize: real, transmittance: real): (r: real)
    requires 0.0 < density
    ensures 0.0 <= irradiance && 0.0 <= stepSize && 0.0 <= transmittance ==> 0.0 <= r
    ensures irradiance == 0.0 || stepSize == 0.0 || transmittance == 0.0 ==> r == 0.0
  {
    ProductSign(density, irradiance, stepSize, transmittance);
    MulZero(density, irradiance);
    MulZero(density * irradiance, stepSize);
    MulZero(density * irradiance * stepSize, transmittance);
    density * irradiance * stepSize * transmittance
  }

  /** The state after a sample with medium: the contribution is added to the
      light and, weighted by the sample's colour, to the colour, and the
      transmittance is multiplied by the attenuation. A factor in (0, 1]
      keeps the transmittance positive and never raises it. */
  function Absorb(st: MarchState, sampleColor: Vec3, contribution: real, attenuation: real): (r: MarchState)
    ensures r.totalLight - st.totalLight == contribution
    ensures r.accumulatedColor == Add(st.accumulatedColor, Scale(sampleColor, contribution))
    ensures 0.0 < st.transmittance && 0.0 < attenuation <= 1.0 ==> 0.0 < r.transmittance <= st.transmittance
  {
    ShrinkingFactor(st.transmittance, attenuation);
    MarchState(st.totalLight + contribution,
               Add(st.accumulatedColor, Scale(sampleColor, contribution)),
               st.transmittance * attenuation)
  }

  /** What one sample does to the march state. A sample without medium
      leaves the state alone, transmittance included. Otherwise it adds
      density * irradiance * stepSize * transmittance of light, weighted by
      the sample's average colour, and then attenuates the transmittance by
      exp(-density * stepSize). */
  function Scatter(m: Math, scene: Scene, p: Vec3, sample: Sample, stepSize: real, st: MarchState): (r: MarchState)
    requires Lawful(m)
    requires 0.0 < sample.density ==> p != scene.lightPos
    ensures sample.density <= 0.0 ==> r == st
    ensures 0.0 <= stepSize && 0.0 <= scene.lightIntensity && 0.0 < st.transmittance ==>
              st.totalLight <= r.totalLight && 0.0 < r.transmittance <= st.transmittance
  {
    if sample.density > 0.0 then
      var sampleColor := Div(sample.weightedColor, sample.density);
      var lightContribution := Irradiance(m, scene.lightIntensity, p, scene.lightPos);
      var contribution := Contribution(sample.density, lightContribution, stepSize, st.transmittance);
      Absorb(st, sampleColor, contribution, Attenuation(m, sample.density, stepSize))
    else st
  }

  /** One iteration of the march: the medium gathered at sample i, scattered. */
  function MarchStep(m: Math, scene: Scene, ray: Ray, stepSize: real, i: nat, st: MarchState): (r: MarchState)
    requires Lawful(m) && Samplable(scene.objects) && ClearAt(m, scene, ray, stepSize, i)
  {
    var p := SamplePoint(ray, stepSize, i);
    Scatter(m, scene, p, Gather(m, scene.objects, p), stepSize, st)
  }

  /** A light clear of the first k samples is clear of the first j <= k. */
  lemma {:induction false} LightClearPrefix(m: Math, scene: Scene, ray: Ray, stepSize: real, j: nat, k: nat)
    requires Lawful(m) && Samplable(scene.objects)
    requires j <= k && LightClear(m, scene, ray, stepSize, k)
    ensures LightClear(m, scene, ray, stepSize, j)
    decreases k
  {
    if j < k {
      LightClearPrefix(m, scene, ray, stepSize, j, k - 1);
    }
  }

  /** Sample i of the first k is clear. */
  lemma LightClearAt(m: Math, scene: Scene, ray: Ray, stepSize: real, i: nat, k: nat)
    requires Lawful(m) && Samplable(scene.objects)
    requires i < k && LightClear(m, scene, ray, stepSize, k)
    ensures ClearAt(m, scene, ray, stepSize, i)
  {
    LightClearPrefix(m, scene, ray, stepSize, i + 1, k);
  }

  /** The state after the first k samples. */
  function March(m: Math, scene: Scene, ray: Ray, stepSize: real, k: nat): (r: MarchState)
    requires Lawful(m) && Samplable(scene.objects) && LightClear(m, scene, ray, stepSize, k)
    ensures 0.0 <= stepSize && 0.0 <= scene.lightIntensity ==>
              0.0 <= r.totalLight && 0.0 < r.transmittance <= 1.0
    decreases k
  {
    if k == 0 then Start
    else MarchStep(m, scene, ray, stepSize, k - 1, March(m, scene, ray, stepSize, k - 1))
  }

  /** The colour the march ends with: the accumulated colour averaged over the
      total light, or black when (almost) no light was gathered. */
  function FinalColor(st: MarchState): (r: Vec3)
    ensures st.totalLight > LightEpsilon ==> Scale(r, st.totalLight) == st.accumulatedColor
    ensures st.totalLight <= LightEpsilon ==> r == Zero
  {
    if st.totalLight > LightEpsilon then Div(st.accumulatedColor, st.totalLight) else Zero
  }

  /** The total light never decreases and the transmittance never increases
      from one sample count to a larger one. */
  lemma {:induction false} MarchMonotone(m: Math, scene: Scene, ray: Ray, stepSize: real, j: nat, k: nat)
    requires Lawful(m) && Samplable(scene.objects) && LightClear(m, scene, ray, stepSize, k)
    requires j <= k && 0.0 <= stepSize && 0.0 <= scene.lightIntensity
    requires LightClear(m, scene, ray, stepSize, j)  // implied by the clearance of the first k
    ensures March(m, scene, ray, stepSize, j).totalLight <= March(m, scene, ray, stepSize, k).totalLight
    ensures March(m, scene, ray, stepSize, k).transmittance <= March(m, scene, ray, stepSize, j).transmittance
    decreases k
  {
    if j < k {
      MarchMonotone(m, scene, ray, stepSize, j, k - 1);
    }
  }

  /** If no sample point has medium, the march gathers nothing and the
      transmittance stays 1. */
  lemma {:induction false} MarchWithoutMedium(m: Math, scene: Scene, ray: Ray, stepSize: real, k: nat)
    requires Lawful(m) && Samplable(scene.objects)
    requires forall i: nat :: i < k ==> Gather(m, scene.objects, SamplePoint(ray, stepSize, i)).density <= 0.0
    ensures LightClear(m, scene, ray, stepSize, k)
    ensures March(m, scene, ray, stepSize, k) == Start
    decreases k
  {
    if k > 0 {
      MarchWithoutMedium(m, scene, ray, stepSize, k - 1);
    }
  }

  /** A sample whose weighted colour is `c` scaled by its density keeps the
      accumulated colour equal to `c` scaled by the total light. */
  lemma ScatterUniformColor(m: Math, scene: Scene, p: Vec3, sample: Sample, stepSize: real, st: MarchState, c: Vec3)
    requires Lawful(m)
    requires 0.0 < sample.density ==> p != scene.lightPos
    requires sample.weightedColor == Scale(c, sample.density)
    requires st.accumulatedColor == Scale(c, st.totalLight)
    ensures var r := Scatter(m, scene, p, sample, stepSize, st);
            r.accumulatedColor == Scale(c, r.totalLight)
  {
    if sample.density > 0.0 {
      DivScale(c, sample.density);
      var r := Scatter(m, scene, p, sample, stepSize, st);
      ScaleAdd(c, st.totalLight, r.totalLight - st.totalLight);
    }
  }

  /** TintedAt `c` at each of the first k samples. */
  predicate TintedUpTo(m: Math, scene: Scene, ray: Ray, stepSize: real, k: nat, c: Vec3)
    requires Lawful(m) && Samplable(scene.objects)
    decreases k
  {
    0 < k ==> TintedUpTo(m, scene, ray, stepSize, k - 1, c)
              && TintedAt(m, scene.objects, SamplePoint(ray, stepSize, k - 1), c)
  }

  /** The inductive step of MarchUniformColor. */
  lemma MarchUniformStep(m: Math, scene: Scene, ray: Ray, stepSize: real, k: nat, c: Vec3)
    requires Lawful(m) && Samplable(scene.objects) && LightClear(m, scene, ray, stepSize, k)
    requires 0 < k && TintedAt(m, scene.objects, SamplePoint(ray, stepSize, k - 1), c)
    requires March(m, scene, ray, stepSize, k - 1).accumulatedColor
             == Scale(c, March(m, scene, ray, stepSize, k - 1).totalLight)
    ensures March(m, scene, ray, stepSize, k).accumulatedColor == Scale(c, March(m, scene, ray, stepSize, k).totalLight)
  {
    var p := SamplePoint(ray, stepSize, k - 1);
    GatherUniformColor(m, scene.objects, p, c);
    ScatterUniformColor(m, scene, p, Gather(m, scene.objects, p), stepSize, March(m, scene, ray, stepSize, k - 1), c);
  }

  /** If the medium at every sample is of colour `c`, the accumulated colour
      is always `c` scaled by the total light. */
  lemma {:induction false} MarchUniformColor(m: Math, scene: Scene, ray: Ray, stepSize: real, k: nat, c: Vec3)
    requires Lawful(m) && Samplable(scene.objects) && LightClear(m, scene, ray, stepSize, k)
    requires TintedUpTo(m, scene, ray, stepSize, k, c)
    ensures March(m, scene, ray, stepSize, k).accumulatedColor == Scale(c, March(m, scene, ray, stepSize, k).totalLight)
    decreases k
  {
    if k > 0 {
      MarchUniformColor(m, scene, ray, stepSize, k - 1, c);
      MarchUniformStep(m, scene, ray, stepSize, k, c);
    }
  }

  /** ... and so the colour the march reports is `c` itself, or black when
      the light gathered is below LightEpsilon. */
  lemma MarchFinalColor(m: Math, scene: Scene, ray: Ray, stepSize: real, k: nat, c: Vec3)
    requires Lawful(m) && Samplable(scene.objects) && LightClear(m, scene, ray, stepSize, k)
    requires TintedUpTo(m, scene, ray, stepSize, k, c)
    ensures var st := March(m, scene, ray, stepSize, k);
            FinalColor(st) == if st.totalLight > LightEpsilon then c else Zero
  {
    var st := March(m, scene, ray, stepSize, k);
    MarchUniformColor(m, scene, ray, stepSize, k, c);
    if st.totalLight > LightEpsilon {
      DivScale(c, st.totalLight);
    }
  }

  /** A scene whose objects all have colour `c` and no negative density is
      tinted `c` at every sample. */
  lemma {:induction false} UniformTintUpTo(m: Math, scene: Scene, ray: Ray, stepSize: real, k: nat, c: Vec3)
    requires Lawful(m) && Samplable(scene.objects)
    requires forall i :: 0 <= i < |scene.objects| ==>
               0.0 <= scene.objects[i].volumeDensity && scene.objects[i].color == c
    ensures TintedUpTo(m, scene, ray, stepSize, k, c)
    decreases k
  {
    if k > 0 {
      UniformTintUpTo(m, scene, ray, stepSize, k - 1, c);
      UniformTint(m, scene.objects, SamplePoint(ray, stepSize, k - 1), c);
    }
  }

  /** In a scene whose objects all have colour `c` and no negative density,
      every ray that gathers light reports colour `c`. */
  lemma UniformSceneColor(m: Math, scene: Scene, ray: Ray, stepSize: real, k: nat, c: Vec3)
    requires Lawful(m) && Samplable(scene.objects) && LightClear(m, scene, ray, stepSize, k)
    requires forall i :: 0 <= i < |scene.objects| ==>
               0.0 <= scene.objects[i].volumeDensity && scene.objects[i].color == c
    ensures var st := March(m, scene, ray, stepSize, k);
            FinalColor(st) == if st.totalLight > LightEpsilon then c else Zero
  {
    UniformTintUpTo(m, scene, ray, stepSize, k, c);
    MarchFinalColor(m, scene, ray, stepSize, k, c);
  }

  /** The loop over the objects at one sample point: the summed density and
      the density-weighted colour, as Gather defines them. */
  method GatherAt(m: Math, objects: seq<Object>, samplePoint: Vec3) returns (density: real, sampleColor: Vec3)
    requires Lawful(m) && Samplable(objects)
    ensures Sample(density, sampleColor) == Gather(m, objects, samplePoint)
  {
    density := 0.0;
    sampleColor := Zero;
    var j := 0;
    while j < |objects|
      invariant 0 <= j <= |objects|
      invariant Sample(density, sampleColor) == Gather(m, objects[..j], samplePoint)
    {
      var obj := objects[j];
      var objDensity := GetDensity(m, obj, samplePoint);
      density := density + objDensity;
      if objDensity > 0.0 {
        sampleColor := Add(sampleColor, Scale(GetColor(obj, samplePoint), objDensity));
      }
      assert objects[..j + 1][..j] == objects[..j];
      j := j + 1;
    }
    assert objects[..j] == objects;
  }

  /** One pass of the sample loop of calculateVolumetricLight: gather the
      medium at sample i and, if there is any, scatter its light and
      attenuate. */
  method MarchSample(m: Math, scene: Scene, ray: Ray, stepSize: real, i: nat,
                     totalLight: real, accumulatedColor: Vec3, transmittance: real)
    returns (totalLight': real, accumulatedColor': Vec3, transmittance': real)
    requires Lawful(m) && Samplable(scene.objects) && ClearAt(m, scene, ray, stepSize, i)
    ensures MarchState(totalLight', accumulatedColor', transmittance')
            == MarchStep(m, scene, ray, stepSize, i, MarchState(totalLight, accumulatedColor, transmittance))
  {
    var samplePoint := PointAt(ray, (i as real) * stepSize);
    var density, sampleColor := GatherAt(m, scene.objects, samplePoint);
    ghost var st := MarchState(totalLight, accumulatedColor, transmittance);
    ghost var scattered := Scatter(m, scene, samplePoint, Sample(density, sampleColor), stepSize, st);
    assert MarchStep(m, scene, ray, stepSize, i, st) == scattered;
    totalLight', accumulatedColor', transmittance' := totalLight, accumulatedColor, transmittance;
    if density > 0.0 {
      sampleColor := Div(sampleColor, density);
      var lightContribution := Irradiance(m, scene.lightIntensity, samplePoint, scene.lightPos);
      var contribution := Contribution(density, lightContribution, stepSize, transmittance);
      totalLight' := totalLight + contribution;
      accumulatedColor' := Add(accumulatedColor, Scale(sampleColor, contribution));
      transmittance' := transmittance * Attenuation(m, density, stepSize);
    }
  }

  /** Scene::calculateVolumetricLight. Returns the total light gathered along
      the ray and the light-weighted average colour of the medium it passed. */
  method CalculateVolumetricLight(m: Math, scene: Scene, ray: Ray, maxDist: real,
                                  numSamples: int := DefaultSamples)
    returns (totalLight: real, outColor: Vec3)
    requires Lawful(m) && Samplable(scene.objects)
    requires LightClear(m, scene, ray, StepSize(maxDist, numSamples), SampleCount(numSamples))
    ensures var st := March(m, scene, ray, StepSize(maxDist, numSamples), SampleCount(numSamples));
            totalLight == st.totalLight && outColor == FinalColor(st)
    ensures 0.0 <= maxDist && 0.0 <= scene.lightIntensity ==> 0.0 <= totalLight
    ensures totalLight <= LightEpsilon ==> outColor == Zero
    ensures (forall i: nat :: i < numSamples ==>
               Gather(m, scene.objects, SamplePoint(ray, StepSize(maxDist, numSamples), i)).density <= 0.0)
            ==> totalLight == 0.0 && outColor == Zero
    ensures numSamples <= 0 ==> totalLight == 0.0 && outColor == Zero
  {
    var stepSize := StepSize(maxDist, numSamples);
    totalLight := 0.0;
    var accumulatedColor := Zero;
    var transmittance := 1.0;
    var i := 0;
    while i < numSamples
      invariant 0 <= i <= SampleCount(numSamples)
      invariant LightClear(m, scene, ray, stepSize, i)
      invariant MarchState(totalLight, accumulatedColor, transmittance) == March(m, scene, ray, stepSize, i)
    {
      LightClearAt(m, scene, ray, stepSize, i, SampleCount(numSamples));
      totalLight, accumulatedColor, transmittance :=
        MarchSample(m, scene, ray, stepSize, i, totalLight, accumulatedColor, transmittance);
      i := i + 1;
      LightClearPrefix(m, scene, ray, stepSize, i, SampleCount(numSamples));
    }
    outColor := if totalLight > LightEpsilon then Div(accumulatedColor, totalLight) else Zero;
    assert (forall k: nat :: k < numSamples ==> Gather(m, scene.objects, SamplePoint(ray, stepSize, k)).density <= 0.0)
           ==> March(m, scene, ray, stepSize, i) == Start by {
      if forall k: nat :: k < numSamples ==> Gather(m, scene.objects, SamplePoint(ray, stepSize, k)).density <= 0.0 {
        MarchWithoutMedium(m, scene, ray, stepSize, i);
      }
    }
  }
}
